=== FILE: README.md ===
# DogStatsD metric handler model

A Dafny model of the metric handler in the datadog-go DogStatsD client. The
handler renders each metric as a DogStatsD line,
`<namespace><name>:<value>|<type>|#<tags>\n`, and appends the line to a
current buffer of fixed capacity. A full buffer is flushed into a
first-in first-out queue for the sender. Aggregated histograms and
distributions carry several values joined by `:`. When they do not all fit,
the values are split on value boundaries. Each continuation line goes in a
fresh buffer and repeats the name, type and tags.

The project has four modules:

- `Text` (text.dfy): joining and splitting on a separator, decimal integers,
  and concatenating buffers.
- `Metrics` (metrics.dfy): the metric value, the line encoder, and a reader
  for lines, used to state round trips.
- `MetricHandler` (handler.dfy): the current buffer and the queue, flushing,
  writing single lines, the greedy split of aggregated values, and the
  properties the handler keeps.
- `HandlerExamples` (handler_examples.dfy): the handler tests' fixed
  expectations, each proved as a lemma about the model.

A line fits when the bytes already in the current buffer plus the whole
line's length stay within the capacity. An equal-length line still fits:
72 bytes go into a 72-byte buffer. Flushing an empty buffer does nothing,
so an empty buffer is never queued. The observable result is the sequence
of queued buffers after a final flush.

## Model

| member | source | states |
|---|---|---|
| Text.SplitJoin | statsd/metric_handlers_test.go:161-175 | Splitting the join of a non-empty list of parts, none holding the separator, gives back exactly the parts. The empty list is excluded because it joins to "", which splits to one empty part. |
| Text.JoinSplit | statsd/metric_handlers_test.go:161-175 | Joining the pieces of a split text restores the text, so a pre-joined tag string reads back as its tags. |
| Text.JoinAppend | statsd/metric_handlers_test.go:65-79 | Joining two non-empty tag lists puts exactly one comma between them, as between the global and the per-call tags. |
| Text.NatDecimalRoundTrip | statsd/metric_handlers_test.go:81-95 | Reading back the decimal digits of a natural number gives the number. |
| Text.IntDecimalRoundTrip | statsd/metric_handlers_test.go:81-95 | An integer count value is written in decimal, with '-' when negative, and reads back as the same integer. |
| Text.ConcatAppend | statsd/metric_handlers_test.go:284-288 | The concatenation of two runs of buffers equals the concatenation of the first run followed by that of the second. |
| Text.LinesConcat | statsd/metric_handlers_test.go:284-288 | Cutting buffer text at each newline gives back exactly the lines laid end to end in it, when each of them ends with its only newline. |
| Text.LinesAppend | statsd/metric_handlers_test.go:284-288 | Text that is empty or ends with a newline is cut into the same lines whatever follows it, so buffers can be read one after another. |
| Metrics.TypeTag | statsd/metric_handlers_test.go:65-159 | The type symbol is one or two lower-case letters, so it never holds a separator of the line. |
| Metrics.TypeTagIdentifiesKind | statsd/metric_handlers_test.go:65-159 | Two payloads get the same type symbol exactly when they are of the same kind, an aggregated histogram or distribution counting as a histogram or distribution. |
| Metrics.TagSectionIsJoin | statsd/metric_handlers_test.go:65-79 | The tag text after '#' is the receiver's tag list, global tags first, joined by commas with none at either end. |
| Metrics.AggLineGrowth | statsd/metric_handlers_test.go:196-206 | Adding one value to an aggregated line costs exactly one ':' plus the value's length. |
| Metrics.AggLineMonotone | statsd/metric_handlers_test.go:196-206 | A line carrying a longer prefix of the values is never shorter, so once a prefix overflows every longer one does too. |
| Metrics.LineWithRoundTrip | statsd/metric_handlers_test.go:65-159 | Provided the name holds no ':' or newline and every tag is non-empty and free of ',' and newline, and the value text holds neither a vertical bar nor a newline, the line ends with its only newline, so a receiver cuts it whole out of its buffer, and it reads back with its full name, value text, type symbol and tag list. |
| Metrics.LineWithOneLine | statsd/metric_handlers_test.go:65-159 | Provided the name holds no ':' or newline and every tag is non-empty and free of ',' and newline, and the value text holds no newline, a line ends with a newline and holds no other. |
| Metrics.Line | statsd/metric_handlers_test.go:129-143 | Provided the name holds no ':' or newline and every tag is non-empty and free of ',' and newline, and the value text holds neither a vertical bar nor a newline, a single-value line is one complete line and reads back with its full name, value text, type symbol and tag list; a set's string value is copied verbatim, ':' included. |
| Metrics.BarInValueUnreadable | statsd/metric_handlers_test.go:129-143 | A single-value line whose value text holds a vertical bar, with a name free of ':', either fails to parse or reads back a value shorter than the one written. |
| Metrics.NewlineInValueSplitsLine | statsd/metric_handlers_test.go:129-143 | A single-value line whose value text holds a newline is not one complete line: it holds a newline before its end. |
| Metrics.AggLineRoundTrip | statsd/metric_handlers_test.go:177-194 | Provided the name holds no ':' or newline and every tag is non-empty and free of ',' and newline, and the list of values is non-empty with no value holding ':', a vertical bar or a newline, an aggregated line is one complete line and reads back with its ':'-joined values, which split into exactly the given values in order. |
| Metrics.AggregatedIgnoresCallTags | statsd/metric_handlers_test.go:161-175 | The per-call tag list plays no part in an aggregated line or its tags. Only the global tags and the pre-joined tag string do. |
| MetricHandler.Flush | statsd/metric_handlers_test.go:53-63 | Flushing queues a non-empty current buffer at the back and empties the buffer. The accepted bytes are unchanged. An empty buffer makes flushing a no-op. The handler invariant is kept. |
| MetricHandler.WriteLine | statsd/metric_handlers_test.go:65-159 | The accepted bytes grow by exactly the line. If the line fits, it is appended to the current buffer and nothing is queued. Otherwise a non-empty current buffer is queued as it is and the line becomes the new current buffer. |
| MetricHandler.FitCount | statsd/metric_handlers_test.go:196-206 | The values taken onto a line give a line that fits after the bytes in use, and one more value would not fit. |
| MetricHandler.FitCountMaximal | statsd/metric_handlers_test.go:196-206 | No longer prefix of the values than the one taken would fit. |
| MetricHandler.FitCountUnique | statsd/metric_handlers_test.go:244-254 | Any count whose prefix fits while one more value would not is the count taken. |
| MetricHandler.CountFitting | statsd/metric_handlers_test.go:196-206 | A running-length computation, adding ':' and one value at a time, returns exactly the greedy count `FitCount`. |
| MetricHandler.Chunks | statsd/metric_handlers_test.go:196-206 | The greedy split of an aggregated metric's values has at least one chunk and no empty chunk. |
| MetricHandler.ChunksPartition | statsd/metric_handlers_test.go:196-206 | The chunks of an aggregated split, laid end to end, are exactly the metric's values in order, none dropped or repeated. |
| MetricHandler.ChunksFit | statsd/metric_handlers_test.go:244-254 | Every chunk's line fits an empty buffer, and the first chunk's line fits where it starts: after the bytes in use, or in a fresh buffer when not even one value fits there. |
| MetricHandler.ChunksMaximal | statsd/metric_handlers_test.go:196-206 | The split is greedy: no chunk could have taken the first value of the next chunk, the first chunk measured where it starts and every other chunk in an empty buffer. |
| MetricHandler.WriteAggregated | statsd/metric_handlers_test.go:257-288 | Writing an aggregated metric leaves the buffers already queued in place, leaves a non-empty current buffer, and keeps every buffer within capacity and ending with a complete line. |
| MetricHandler.WriteAggregatedNoneFit | statsd/metric_handlers_test.go:257-288 | When not one value fits, the current buffer is non-empty, it is flushed, and the write starts over. |
| MetricHandler.AggregatedFromEmpty | statsd/metric_handlers_test.go:196-206 | From an empty buffer, every line of the split lands in a buffer of its own. All but the last are queued in order and the last stays current. |
| MetricHandler.AggregatedBuffers | statsd/metric_handlers_test.go:257-288 | An aggregated metric's lines are placed in one of two ways. Either the first line shares the current buffer, or that buffer is queued untouched. Every further line gets a fresh buffer. |
| MetricHandler.ProcessMetric | statsd/metric_handlers_test.go:257-288 | Any metric's rendered lines, one line or an aggregated split, are placed as `AggregatedBuffers` describes: the first line shares the current buffer when it fits, or that buffer is queued untouched, and every further line gets a fresh buffer. |
| MetricHandler.ProcessMetricValid | statsd/metric_handlers_test.go:244-254 | Processing a metric keeps every buffer within capacity and ending with a complete line. Buffers already queued stay in place, in order. |
| MetricHandler.ProcessMetricStream | statsd/metric_handlers_test.go:257-288 | Processing a metric appends exactly its rendered lines to the accepted bytes: queued buffers first, then the current one. |
| MetricHandler.AggregatedValuesRoundTrip | statsd/metric_handlers_test.go:244-254 | For an aggregated metric each of whose values' lines fits a fresh buffer, and provided the name holds no ':' or newline and every tag is non-empty and free of ',' and newline, and no value holds ':', a vertical bar or a newline, a receiver cutting the metric's bytes at each newline and reading each line gets back exactly the metric's values, in order. |
| MetricHandler.ProcessMetricReadBack | statsd/metric_handlers_test.go:257-288 | For a well-formed handler and a metric each of whose lines fits a fresh buffer and that is `Readable` (the name holds no ':' or newline, every tag is non-empty and free of ',' and newline, and no value holds a vertical bar or a newline, nor ':' in an aggregated value), a receiver cutting the accepted bytes at each newline finds the lines it found before, followed by exactly the metric's rendered lines. |
| HandlerExamples.SingleTags | statsd/metric_handlers_test.go:65-79 | The tags of a single-value metric are written as "globalTags,globalTags2,tag1,tag2". |
| HandlerExamples.AggregatedTags | statsd/metric_handlers_test.go:161-175 | The global tags followed by the pre-joined tag string "tag1,tag2" are written as the same tag text. |
| HandlerExamples.SingleExample | statsd/metric_handlers_test.go:53-63 | A single-value metric processed into a fresh 100-byte handler and then flushed queues exactly one buffer holding its one line. |
| HandlerExamples.GaugeExample | statsd/metric_handlers_test.go:65-79 | The gauge with value 21 is queued as the exact expected gauge line with type 'g'. |
| HandlerExamples.CountExample | statsd/metric_handlers_test.go:81-95 | The count 21 is written in decimal as "21" with type 'c'. |
| HandlerExamples.HistogramExample | statsd/metric_handlers_test.go:97-111 | The histogram line has type 'h'. |
| HandlerExamples.DistributionExample | statsd/metric_handlers_test.go:113-127 | The distribution line has type 'd'. |
| HandlerExamples.SetExample | statsd/metric_handlers_test.go:129-143 | The set's string value is copied verbatim, with type 's'. |
| HandlerExamples.TimingExample | statsd/metric_handlers_test.go:145-159 | The timing line carries "1.200000" with type 'ms'. |
| HandlerExamples.AggLineSize | statsd/metric_handlers_test.go:196-206 | An aggregated line of values three characters wide, with the tests' namespace and tags, is 47 bytes plus the name plus 4 per value. |
| HandlerExamples.AggregatedOneLine | statsd/metric_handlers_test.go:177-194 | When all four values fit, a flush queues one buffer with a single line carrying them all. |
| HandlerExamples.AggregatedTwoLines | statsd/metric_handlers_test.go:196-206 | When exactly two values fit per buffer, a flush queues two buffers with two values each, the prefix repeated. |
| HandlerExamples.HistogramAggregatedExample | statsd/metric_handlers_test.go:161-175 | The aggregated histogram with one value gives one 'h' line, tagged with the global tags then "tag1,tag2". |
| HandlerExamples.HistogramAggregatedMultipleExample | statsd/metric_handlers_test.go:177-194 | In a 100-byte buffer the four histogram values go on one line, in order. |
| HandlerExamples.HistogramAggregatedSplitExample | statsd/metric_handlers_test.go:196-206 | In a 70-byte buffer the histogram is split into ":1.1:2.2" and ":3.3:4.4" lines in two buffers. |
| HandlerExamples.DistributionAggregatedExample | statsd/metric_handlers_test.go:209-223 | The aggregated distribution with one value gives one 'd' line. |
| HandlerExamples.DistributionAggregatedMultipleExample | statsd/metric_handlers_test.go:225-242 | In a 100-byte buffer the four distribution values go on one line, in order. |
| HandlerExamples.DistributionAggregatedSplitExample | statsd/metric_handlers_test.go:244-254 | In a 72-byte buffer a 72-byte two-value line fits exactly. The distribution is split into two buffers of two values each. |
| HandlerExamples.FirstOfTwo | statsd/metric_handlers_test.go:257-271 | The first distribution's 80-byte line stays whole in the current 160-byte buffer. |
| HandlerExamples.SecondOfTwo | statsd/metric_handlers_test.go:272-283 | Three values of the second distribution fit after the first line, which fills the buffer to 158 bytes. That buffer is queued and the fourth value starts a fresh one. |
| HandlerExamples.TwoAggregatedBuffers | statsd/metric_handlers_test.go:257-283 | After both metrics, the first one's line plus three values of the second fill one queued buffer, and the fourth value's line is the current buffer. |
| HandlerExamples.TwoAggregated | statsd/metric_handlers_test.go:257-288 | Two metrics processed in turn share the first buffer. The queue after a flush holds that shared buffer, then the remainder, in order. |
| HandlerExamples.TwoDistributionsExample | statsd/metric_handlers_test.go:257-288 | The exact two buffers the test expects, in order. |

## Left out

- Sampling (`shouldSample` and the rate) is not modelled. Every metric is processed as if sampled, which is what the tests do with rate 1.
- Floating-point formatting is not modelled. Gauge, histogram, distribution, timing and aggregated values arrive as already rendered text; the timing example passes "1.200000".
- The buffer pool, the sender and its channel are not modelled. The queue is a sequence with no bound on its length. The third argument of `newBufferPool` (5 in `initMetricHandler`, statsd/metric_handlers_test.go:41) caps how many metrics one buffer may hold in the client. The model closes a buffer on its byte count alone, so it never flushes a buffer for holding too many metrics. The pool's code is not part of this model.
- Error returns are not modelled. A metric whose type does not match its value field cannot be built, because the payload constructor fixes the type.
- Processable: a single line, or a single aggregated value's line, longer than the capacity is excluded by precondition. No fresh buffer can hold such a line, and the handler tests never write one.
- The tag section is always written as "|#" followed by the tag text, even when there are no tags. The tests never pin down the tagless form.
- A set value holding '|' is copied into the line as it is, as the encoder does, and a receiver cannot read that line back: it stops the value at the first '|' (`BarInValueUnreadable`). The round-trip rows therefore require values free of '|'.
- A newline inside a name, a tag or a value is copied into the line as it is, as the encoder does. In the buffer, that newline ends the line early, and a receiver that cuts the buffer into lines gets two pieces it cannot read (`NewlineInValueSplitsLine`). The round-trip rows therefore require names, tags and values free of newlines.
- Lengths count characters, not bytes. The capacity is a byte count, and the two agree only for ASCII text. For a value or tag outside ASCII, the fit rule and the capacity bound in `Valid` undercount the UTF-8 bytes a buffer holds. A set value of 40 'é' characters, for example, is 80 bytes but 40 characters.
- Concurrency is not modelled: the producer threads and the sender worker are left out. Each handler operation is a pure function of the previous state.
- The model takes as given the buffers the handler tests expect, together with the flush-and-continue protocol for aggregated values. Every rule of the encoder and the handler is fixed so that those expectations hold.

=== FILE: handler.dfy ===
/**
 The metric handler: a current buffer of fixed capacity that rendered lines
 are appended to, and a first-in first-out queue of completed buffers
 waiting for the sender.

 A line is appended to the current buffer when the buffer's length plus the
 line's length stays within the capacity; otherwise the current buffer is
 flushed first. An aggregated metric is split on value boundaries: as many
 values as fit go on a line in the current buffer, the buffer is flushed,
 and the remaining values continue in a fresh buffer on a line that repeats
 the name, type and tags.
 */
module MetricHandler {
  import opened Text
  import opened Metrics

  /** The capacity of every buffer, the buffer being filled, and the
      completed buffers, oldest first. */
  datatype Handler = Handler(capacity: nat, current: string, queue: seq<string>)

  /** A handler with a fresh, empty buffer and nothing queued. */
  function NewHandler(capacity: nat): Handler
  {
    Handler(capacity, "", [])
  }

  /** A buffer fit to hand to the sender: not empty, within capacity, and
      ending with a complete line. */
  predicate Sealed(b: string, capacity: nat)
  {
    0 < |b| <= capacity && b[|b| - 1] == '\n'
  }

  predicate AllSealed(bs: seq<string>, capacity: nat)
  {
    forall i :: 0 <= i < |bs| ==> Sealed(bs[i], capacity)
  }

  lemma AllSealedAppend(a: seq<string>, b: seq<string>, capacity: nat)
    requires AllSealed(a, capacity) && AllSealed(b, capacity)
    ensures AllSealed(a + b, capacity)
  {
    forall i | 0 <= i < |a + b|
      ensures Sealed((a + b)[i], capacity)
    {
      if i >= |a| {
        assert (a + b)[i] == b[i - |a|];
      }
    }
  }

  /** The handler invariant: the current buffer is within capacity and holds
      complete lines, and every queued buffer is sealed. */
  predicate Valid(h: Handler)
  {
    && |h.current| <= h.capacity
    && (h.current != "" ==> h.current[|h.current| - 1] == '\n')
    && AllSealed(h.queue, h.capacity)
  }

  /** All bytes the handler has accepted, in order: the queued buffers
      followed by the current one. */
  function Stream(h: Handler): string
  {
    Concat(h.queue) + h.current
  }

  /** Moves a non-empty current buffer to the back of the queue and starts a
      fresh one; flushing an empty buffer changes nothing. */
  function Flush(h: Handler): (r: Handler)
    ensures r.capacity == h.capacity
    ensures r.current == ""
    ensures Stream(r) == Stream(h)
    ensures h.queue <= r.queue && |r.queue| <= |h.queue| + 1
    ensures h.current == "" ==> r == h
    ensures Valid(h) ==> Valid(r)
  {
    if h.current == "" then h
    else
      var q := h.queue + [h.current];
      assert q[..|q| - 1] == h.queue;
      assert Valid(h) ==> AllSealed(q, h.capacity) by {
        if Valid(h) {
          assert AllSealed([h.current], h.capacity);
          AllSealedAppend(h.queue, [h.current], h.capacity);
        }
      }
      Handler(h.capacity, "", q)
  }

  /** Appends one whole line, flushing first when it would not fit. */
  function WriteLine(h: Handler, line: string): (r: Handler)
    requires |line| <= h.capacity
    ensures r.capacity == h.capacity
    ensures Stream(r) == Stream(h) + line
    ensures |line| <= |r.current| && r.current[|r.current| - |line|..] == line
    ensures h.queue <= r.queue
    ensures r.queue != h.queue <==> h.current != "" && |h.current| + |line| > h.capacity
    ensures r.queue != h.queue ==> r.queue == h.queue + [h.current] && r.current == line
    ensures r.queue == h.queue ==> r.current == h.current + line
    ensures Valid(h) && 0 < |line| && line[|line| - 1] == '\n' ==> Valid(r)
  {
    if |h.current| + |line| <= h.capacity then
      assert (h.current + line)[|h.current|..] == line;
      h.(current := h.current + line)
    else
      var f := Flush(h);
      assert f.current + line == line;
      f.(current := line)
  }

  /** The line carrying `vs` fits after `used` bytes. */
  predicate FitsAfter(used: nat, capacity: nat, m: Metric, vs: seq<string>)
  {
    used + |AggLine(m, vs)| <= capacity
  }

  /** Scans the values from index `i` on, stopping at the first one whose
      addition would make the line overflow. */
  function Scan(used: nat, capacity: nat, m: Metric, vs: seq<string>, i: nat): (k: nat)
    requires i <= |vs|
    requires 0 < i ==> FitsAfter(used, capacity, m, vs[..i])
    ensures i <= k <= |vs|
    ensures 0 < k ==> FitsAfter(used, capacity, m, vs[..k])
    ensures k < |vs| ==> !FitsAfter(used, capacity, m, vs[..k + 1])
    decreases |vs| - i
  {
    if i < |vs| && FitsAfter(used, capacity, m, vs[..i + 1]) then
      Scan(used, capacity, m, vs, i + 1)
    else
      i
  }

  /** How many leading values go on the line written after `used` bytes:
      the line with them fits, and the line with one more would not. */
  function FitCount(used: nat, capacity: nat, m: Metric, vs: seq<string>): (k: nat)
    ensures k <= |vs|
    ensures 0 < k ==> FitsAfter(used, capacity, m, vs[..k])
    ensures k < |vs| ==> !FitsAfter(used, capacity, m, vs[..k + 1])
  {
    Scan(used, capacity, m, vs, 0)
  }

  /** Stopping at the first overflow takes the longest prefix that fits. */
  lemma FitCountMaximal(used: nat, capacity: nat, m: Metric, vs: seq<string>, j: nat)
    requires FitCount(used, capacity, m, vs) < j <= |vs|
    ensures !FitsAfter(used, capacity, m, vs[..j])
  {
    var k := FitCount(used, capacity, m, vs);
    AggLineMonotone(m, vs, k + 1, j);
  }

  /** Any count whose prefix fits while one more value would not is the
      count the handler takes. */
  lemma FitCountUnique(used: nat, capacity: nat, m: Metric, vs: seq<string>, j: nat)
    requires j <= |vs|
    requires 0 < j ==> FitsAfter(used, capacity, m, vs[..j])
    requires j < |vs| ==> !FitsAfter(used, capacity, m, vs[..j + 1])
    ensures FitCount(used, capacity, m, vs) == j
  {
    var k := FitCount(used, capacity, m, vs);
    if k < j {
      AggLineMonotone(m, vs, k + 1, j);
    } else if j < k {
      AggLineMonotone(m, vs, j + 1, k);
    }
  }

  /** `FitCount` computed incrementally: a running length of the header and
      the values taken so far, each candidate checked against the capacity
      with the trailer's size added. */
  method CountFitting(used: nat, capacity: nat, m: Metric, vs: seq<string>) returns (position: nat)
    ensures position == FitCount(used, capacity, m, vs)
  {
    var tagSize := |Trailer(m)|;
    var length := used + |Header(m)|;
    position := 0;
    while position < |vs|
      invariant position <= |vs|
      invariant length == used + |Header(m)| + |Join(vs[..position], ':')|
      invariant 0 < position ==> FitsAfter(used, capacity, m, vs[..position])
      invariant Scan(used, capacity, m, vs, position) == FitCount(used, capacity, m, vs)
      decreases |vs| - position
    {
      var next := length + (if position == 0 then 0 else 1) + |vs[position]|;
      TakeNext(vs, position);
      if position > 0 {
        JoinSnoc(vs[..position], vs[position], ':');
      } else {
        TakeOne(vs);
      }
      assert next + tagSize == used + |AggLine(m, vs[..position + 1])|;
      if next + tagSize > capacity {
        break;
      }
      length := next;
      position := position + 1;
    }
  }

  /** Every value, on a line of its own, fits an empty buffer. */
  predicate FitsAlone(capacity: nat, m: Metric, vs: seq<string>)
  {
    forall i :: 0 <= i < |vs| ==> |AggLine(m, [vs[i]])| <= capacity
  }

  lemma FitsAloneSuffix(capacity: nat, m: Metric, vs: seq<string>, k: nat)
    requires k <= |vs| && FitsAlone(capacity, m, vs)
    ensures FitsAlone(capacity, m, vs[k..])
  {
    forall i | 0 <= i < |vs| - k
      ensures |AggLine(m, [vs[k..][i]])| <= capacity
    {
      assert vs[k..][i] == vs[k + i];
    }
  }

  /** The greedy split of an aggregated metric's values into lines, the first
      written after `used` bytes and each further one in a fresh buffer. */
  function Chunks(used: nat, capacity: nat, m: Metric, vs: seq<string>): (cs: seq<seq<string>>)
    requires |vs| > 0 && FitsAlone(capacity, m, vs)
    ensures |cs| > 0
    ensures forall i :: 0 <= i < |cs| ==> |cs[i]| > 0
    decreases |vs|, used
  {
    var k := FitCount(used, capacity, m, vs);
    TakeOne(vs);
    if k == |vs| then [vs]
    else if k == 0 then Chunks(0, capacity, m, vs)
    else
      FitsAloneSuffix(capacity, m, vs, k);
      [vs[..k]] + Chunks(0, capacity, m, vs[k..])
  }

  /** One step of the split, by how many values fit after `used` bytes. */
  lemma ChunksStep(used: nat, capacity: nat, m: Metric, vs: seq<string>, k: nat)
    requires |vs| > 0 && FitsAlone(capacity, m, vs)
    requires k == FitCount(used, capacity, m, vs)
    ensures k == |vs| ==> Chunks(used, capacity, m, vs) == [vs]
    ensures k == 0 ==> Chunks(used, capacity, m, vs) == Chunks(0, capacity, m, vs)
    ensures 0 < k < |vs| ==> FitsAlone(capacity, m, vs[k..])
    ensures 0 < k < |vs| ==> Chunks(used, capacity, m, vs) == [vs[..k]] + Chunks(0, capacity, m, vs[k..])
  {
    TakeOne(vs);
    if 0 < k < |vs| {
      FitsAloneSuffix(capacity, m, vs, k);
    }
  }

  /** The split keeps every value, in order, and no chunk is empty. */
  lemma {:induction false} ChunksPartition(used: nat, capacity: nat, m: Metric, vs: seq<string>)
    requires |vs| > 0 && FitsAlone(capacity, m, vs)
    ensures Flatten(Chunks(used, capacity, m, vs)) == vs
    decreases |vs|, used
  {
    var k := FitCount(used, capacity, m, vs);
    ChunksStep(used, capacity, m, vs, k);
    if k == 0 {
      ChunksPartition(0, capacity, m, vs);
    } else if k < |vs| {
      var rest := Chunks(0, capacity, m, vs[k..]);
      ChunksPartition(0, capacity, m, vs[k..]);
      FlattenCons(vs[..k], rest);
      TakeDrop(vs, k);
    } else {
      FlattenCons(vs, []);
    }
  }

  /** A chunk that fits an empty buffer, put in front of chunks that do. */
  lemma FitEachCons(capacity: nat, m: Metric, c: seq<string>, rest: seq<seq<string>>)
    requires FitsAfter(0, capacity, m, c)
    requires forall i :: 0 <= i < |rest| ==> FitsAfter(0, capacity, m, rest[i])
    ensures forall i :: 0 <= i < |[c] + rest| ==> FitsAfter(0, capacity, m, ([c] + rest)[i])
  {
    forall i | 0 <= i < |[c] + rest|
      ensures FitsAfter(0, capacity, m, ([c] + rest)[i])
    {
      if i > 0 {
        assert ([c] + rest)[i] == rest[i - 1];
      }
    }
  }

  /** Where the first chunk's line starts: after the `used` bytes when its
      first value fits there, and in a fresh buffer otherwise. */
  function FirstStart(used: nat, capacity: nat, m: Metric, vs: seq<string>): nat
    requires |vs| > 0
  {
    if FitsAfter(used, capacity, m, [vs[0]]) then used else 0
  }

  /** Every chunk's line fits an empty buffer, and the first one fits where
      it starts: after the `used` bytes unless not even one value would. */
  lemma {:induction false} ChunksFit(used: nat, capacity: nat, m: Metric, vs: seq<string>)
    requires |vs| > 0 && FitsAlone(capacity, m, vs)
    ensures var cs := Chunks(used, capacity, m, vs);
      && (forall i :: 0 <= i < |cs| ==> FitsAfter(0, capacity, m, cs[i]))
      && FitsAfter(FirstStart(used, capacity, m, vs), capacity, m, cs[0])
    decreases |vs|, used
  {
    var k := FitCount(used, capacity, m, vs);
    ChunksStep(used, capacity, m, vs, k);
    TakeOne(vs);
    if k == |vs| {
      assert vs[..k] == vs;
    } else if k == 0 {
      ChunksFit(0, capacity, m, vs);
    } else {
      ChunksFit(0, capacity, m, vs[k..]);
      FitEachCons(capacity, m, vs[..k], Chunks(0, capacity, m, vs[k..]));
    }
  }

  /** No chunk after the first could take the first value of the next one. */
  predicate GreedyTail(capacity: nat, m: Metric, cs: seq<seq<string>>)
    requires forall i :: 0 <= i < |cs| ==> |cs[i]| > 0
  {
    forall i :: 1 <= i < |cs| - 1 ==> !FitsAfter(0, capacity, m, cs[i] + [cs[i + 1][0]])
  }

  /** A chunk put in front of a split that is greedy in an empty buffer. */
  lemma GreedyCons(capacity: nat, m: Metric, c: seq<string>, rest: seq<seq<string>>)
    requires |c| > 0 && |rest| > 0
    requires forall i :: 0 <= i < |rest| ==> |rest[i]| > 0
    requires |rest| > 1 ==> !FitsAfter(0, capacity, m, rest[0] + [rest[1][0]])
    requires GreedyTail(capacity, m, rest)
    ensures forall i :: 0 <= i < |[c] + rest| ==> |([c] + rest)[i]| > 0
    ensures GreedyTail(capacity, m, [c] + rest)
  {
    var cs := [c] + rest;
    forall i | 0 <= i < |cs|
      ensures |cs[i]| > 0
    {
      if i > 0 {
        assert cs[i] == rest[i - 1];
      }
    }
    forall i | 1 <= i < |cs| - 1
      ensures !FitsAfter(0, capacity, m, cs[i] + [cs[i + 1][0]])
    {
      assert cs[i] == rest[i - 1] && cs[i + 1] == rest[i];
    }
  }

  /** The split is greedy: no chunk could have taken the first value of the
      next one, the first chunk measured where its line starts and every
      other one in an empty buffer. */
  lemma {:induction false} ChunksMaximal(used: nat, capacity: nat, m: Metric, vs: seq<string>)
    requires |vs| > 0 && FitsAlone(capacity, m, vs)
    ensures var cs := Chunks(used, capacity, m, vs);
      && (|cs| > 1 ==> !FitsAfter(FirstStart(used, capacity, m, vs), capacity, m, cs[0] + [cs[1][0]]))
      && GreedyTail(capacity, m, cs)
    decreases |vs|, used
  {
    var k := FitCount(used, capacity, m, vs);
    ChunksStep(used, capacity, m, vs, k);
    TakeOne(vs);
    if k == 0 {
      ChunksMaximal(0, capacity, m, vs);
    } else if k < |vs| {
      AggLineMonotone(m, vs, 1, k);
      var rest := Chunks(0, capacity, m, vs[k..]);
      ChunksMaximal(0, capacity, m, vs[k..]);
      ChunksPartition(0, capacity, m, vs[k..]);
      FlattenHead(rest);
      assert rest[0][0] == vs[k];
      TakeNext(vs, k);
      GreedyCons(capacity, m, vs[..k], rest);
    }
  }

  /** The lines carrying the chunks, in order. */
  function AggLines(m: Metric, cs: seq<seq<string>>): (ls: seq<string>)
    ensures |ls| == |cs|
    ensures forall i :: 0 <= i < |cs| ==> ls[i] == AggLine(m, cs[i])
  {
    if |cs| == 0 then [] else [AggLine(m, cs[0])] + AggLines(m, cs[1..])
  }

  lemma AggLinesCons(m: Metric, c: seq<string>, cs: seq<seq<string>>)
    ensures AggLines(m, [c] + cs) == [AggLine(m, c)] + AggLines(m, cs)
  {
    assert ([c] + cs)[1..] == cs;
  }

  /** Writes an aggregated metric's values the way the handler's loop does:
      as many as fit go on a line in the current buffer; if some are left
      the buffer is flushed and they continue in a fresh one; if none fit,
      the buffer is flushed and the write retried. */
  function WriteAggregated(h: Handler, m: Metric, vs: seq<string>): (r: Handler)
    requires |vs| > 0 && FitsAlone(h.capacity, m, vs)
    ensures r.capacity == h.capacity
    ensures h.queue <= r.queue
    ensures r.current != ""
    ensures Valid(h) ==> Valid(r)
    decreases |vs|, |h.current|
  {
    var k := FitCount(|h.current|, h.capacity, m, vs);
    TakeOne(vs);
    if k == |vs| then
      assert vs[..k] == vs;
      AppendValid(h, AggLine(m, vs));
      h.(current := h.current + AggLine(m, vs))
    else if k == 0 then
      WriteAggregated(Flush(h), m, vs)
    else
      FitsAloneSuffix(h.capacity, m, vs, k);
      AppendValid(h, AggLine(m, vs[..k]));
      WriteAggregated(Flush(h.(current := h.current + AggLine(m, vs[..k]))), m, vs[k..])
  }

  /** Appending a complete line that fits keeps the handler invariant. */
  lemma AppendValid(h: Handler, line: string)
    requires 0 < |line| && line[|line| - 1] == '\n'
    requires |h.current| + |line| <= h.capacity
    ensures h.(current := h.current + line).current != ""
    ensures Valid(h) ==> Valid(h.(current := h.current + line))
  {
    var c := h.current + line;
    assert c[|c| - 1] == line[|line| - 1];
  }

  /** All values fit after the current content: one line joins it. */
  lemma WriteAggregatedAllFit(h: Handler, m: Metric, vs: seq<string>)
    requires |vs| > 0 && FitsAlone(h.capacity, m, vs)
    requires FitCount(|h.current|, h.capacity, m, vs) == |vs|
    ensures WriteAggregated(h, m, vs) == h.(current := h.current + AggLine(m, vs))
    ensures AggLines(m, Chunks(|h.current|, h.capacity, m, vs)) == [AggLine(m, vs)]
  {
    TakeOne(vs);
    AggLinesCons(m, vs, []);
  }

  /** Not one value fits after the current content: the buffer, which then
      cannot be empty, is flushed and the write starts over. */
  lemma WriteAggregatedNoneFit(h: Handler, m: Metric, vs: seq<string>)
    requires |vs| > 0 && FitsAlone(h.capacity, m, vs)
    requires FitCount(|h.current|, h.capacity, m, vs) == 0
    ensures h.current != ""
    ensures WriteAggregated(h, m, vs) == WriteAggregated(Flush(h), m, vs)
    ensures Chunks(|h.current|, h.capacity, m, vs) == Chunks(0, h.capacity, m, vs)
  {
    TakeOne(vs);
  }

  /** Some but not all values fit: their line closes the current buffer,
      which is queued, and the rest continue in a fresh one. */
  lemma WriteAggregatedSomeFit(h: Handler, m: Metric, vs: seq<string>, k: nat)
    requires |vs| > 0 && FitsAlone(h.capacity, m, vs)
    requires k == FitCount(|h.current|, h.capacity, m, vs) && 0 < k < |vs|
    ensures FitsAlone(h.capacity, m, vs[k..])
    ensures WriteAggregated(h, m, vs)
         == WriteAggregated(Handler(h.capacity, "", h.queue + [h.current + AggLine(m, vs[..k])]), m, vs[k..])
    ensures AggLines(m, Chunks(|h.current|, h.capacity, m, vs))
         == [AggLine(m, vs[..k])] + AggLines(m, Chunks(0, h.capacity, m, vs[k..]))
  {
    TakeOne(vs);
    FitsAloneSuffix(h.capacity, m, vs, k);
    var line0 := AggLine(m, vs[..k]);
    assert Flush(h.(current := h.current + line0))
        == Handler(h.capacity, "", h.queue + [h.current + line0]);
    AggLinesCons(m, vs[..k], Chunks(0, h.capacity, m, vs[k..]));
  }

  /** In an empty buffer at least the first value always fits. */
  lemma FitCountFromEmpty(capacity: nat, m: Metric, vs: seq<string>)
    requires |vs| > 0 && FitsAlone(capacity, m, vs)
    ensures FitCount(0, capacity, m, vs) > 0
  {
    TakeOne(vs);
  }

  /** The outcome for an empty buffer: the lines of the split in buffers of
      their own, all but the last queued behind `h.queue`. */
  predicate LandsSeparately(h: Handler, m: Metric, vs: seq<string>)
    requires |vs| > 0 && FitsAlone(h.capacity, m, vs)
  {
    var ls := AggLines(m, Chunks(0, h.capacity, m, vs));
    WriteAggregated(h, m, vs) == Handler(h.capacity, ls[|ls| - 1], h.queue + ls[..|ls| - 1])
  }

  /** Putting one line in front of the split moves it to the queue. */
  lemma LandsBookkeeping(capacity: nat, q: seq<string>, line0: string, ls': seq<string>,
                         ls: seq<string>, r: Handler)
    requires |ls'| > 0 && ls == [line0] + ls'
    requires r == Handler(capacity, ls'[|ls'| - 1], q + [line0] + ls'[..|ls'| - 1])
    ensures r == Handler(capacity, ls[|ls| - 1], q + ls[..|ls| - 1])
  {
    ConsSlices(line0, ls');
    assert q + [line0] + ls'[..|ls'| - 1] == q + ([line0] + ls'[..|ls'| - 1]);
  }

  /** The inductive step for an empty buffer: the first line is queued, and
      the rest of the split lands as it would from a fresh buffer. */
  lemma FromEmptyStep(h: Handler, m: Metric, vs: seq<string>, k: nat)
    requires h.current == ""
    requires |vs| > 0 && FitsAlone(h.capacity, m, vs)
    requires k == FitCount(0, h.capacity, m, vs) && 0 < k < |vs|
    requires FitsAlone(h.capacity, m, vs[k..])
    requires LandsSeparately(Handler(h.capacity, "", h.queue + [AggLine(m, vs[..k])]), m, vs[k..])
    ensures LandsSeparately(h, m, vs)
  {
    var line0 := AggLine(m, vs[..k]);
    WriteAggregatedSomeFit(h, m, vs, k);
    assert h.current + line0 == line0;
    LandsBookkeeping(h.capacity, h.queue, line0, AggLines(m, Chunks(0, h.capacity, m, vs[k..])),
                     AggLines(m, Chunks(0, h.capacity, m, vs)), WriteAggregated(h, m, vs));
  }

  /** Starting from an empty buffer, every line of the split lands in a buffer
      of its own: all but the last are queued, the last stays current. */
  lemma {:induction false} AggregatedFromEmpty(h: Handler, m: Metric, vs: seq<string>)
    requires h.current == ""
    requires |vs| > 0 && FitsAlone(h.capacity, m, vs)
    ensures LandsSeparately(h, m, vs)
    decreases |vs|
  {
    var k := FitCount(0, h.capacity, m, vs);
    FitCountFromEmpty(h.capacity, m, vs);
    if k == |vs| {
      WriteAggregatedAllFit(h, m, vs);
      assert h.current + AggLine(m, vs) == AggLine(m, vs);
    } else {
      FitsAloneSuffix(h.capacity, m, vs, k);
      AggregatedFromEmpty(Handler(h.capacity, "", h.queue + [AggLine(m, vs[..k])]), m, vs[k..]);
      FromEmptyStep(h, m, vs, k);
    }
  }

  /** Where a metric's lines go when written into `h` to give `r`. If the
      first line fits after what the current buffer holds, it joins it
      there; otherwise the current buffer, which then holds something, is
      queued untouched. Every further line gets a buffer of its own, and the
      last line stays in the current buffer. */
  predicate Placed(h: Handler, ls: seq<string>, r: Handler)
  {
    var n := |ls|;
    && n > 0
    && if |h.current| + |ls[0]| <= h.capacity then
         (n == 1 ==> r == h.(current := h.current + ls[0]))
         && (n > 1 ==> r == Handler(h.capacity, ls[n - 1], h.queue + [h.current + ls[0]] + ls[1..n - 1]))
       else
         h.current != "" && r == Handler(h.capacity, ls[n - 1], h.queue + [h.current] + ls[..n - 1])
  }

  /** Not one value fits after the current content: the current buffer is
      queued as it is and the split lands in fresh buffers. */
  lemma PlacedNoneFit(h: Handler, m: Metric, vs: seq<string>)
    requires |vs| > 0 && FitsAlone(h.capacity, m, vs)
    requires FitCount(|h.current|, h.capacity, m, vs) == 0
    ensures Placed(h, AggLines(m, Chunks(|h.current|, h.capacity, m, vs)), WriteAggregated(h, m, vs))
  {
    WriteAggregatedNoneFit(h, m, vs);
    var cs := Chunks(0, h.capacity, m, vs);
    ChunksPartition(0, h.capacity, m, vs);
    FlattenHead(cs);
    TakeOne(vs);
    AggLineMonotone(m, vs, 1, |cs[0]|);
    AggregatedFromEmpty(Flush(h), m, vs);
    assert LandsSeparately(Flush(h), m, vs);
  }

  /** Some values fit after the current content: their line closes the
      current buffer and the rest land in fresh buffers. */
  lemma PlacedSomeFit(h: Handler, m: Metric, vs: seq<string>, k: nat)
    requires |vs| > 0 && FitsAlone(h.capacity, m, vs)
    requires k == FitCount(|h.current|, h.capacity, m, vs) && 0 < k < |vs|
    ensures Placed(h, AggLines(m, Chunks(|h.current|, h.capacity, m, vs)), WriteAggregated(h, m, vs))
  {
    WriteAggregatedSomeFit(h, m, vs, k);
    var line0 := AggLine(m, vs[..k]);
    var f := Handler(h.capacity, "", h.queue + [h.current + line0]);
    AggregatedFromEmpty(f, m, vs[k..]);
    var ls' := AggLines(m, Chunks(0, h.capacity, m, vs[k..]));
    assert LandsSeparately(f, m, vs[k..]);
    ConsSlices(line0, ls');
  }

  /** An aggregated metric's split lines are placed as described above. */
  lemma AggregatedBuffers(h: Handler, m: Metric, vs: seq<string>)
    requires |vs| > 0 && FitsAlone(h.capacity, m, vs)
    ensures Placed(h, AggLines(m, Chunks(|h.current|, h.capacity, m, vs)), WriteAggregated(h, m, vs))
  {
    var k := FitCount(|h.current|, h.capacity, m, vs);
    if k == |vs| {
      WriteAggregatedAllFit(h, m, vs);
      assert vs[..k] == vs;
    } else if k == 0 {
      PlacedNoneFit(h, m, vs);
    } else {
      PlacedSomeFit(h, m, vs, k);
    }
  }

  /** What the handler accepts: an aggregated metric carries at least one
      value and each value's line fits an empty buffer; any other metric's
      line fits an empty buffer. */
  predicate Processable(capacity: nat, m: Metric)
  {
    if m.payload.IsAggregated() then
      |m.payload.fvalues| > 0 && FitsAlone(capacity, m, m.payload.fvalues)
    else
      |Line(m)| <= capacity
  }

  /** Renders one metric into the handler's buffers: its lines, one line or
      an aggregated split, are placed as described above. */
  function ProcessMetric(h: Handler, m: Metric): (r: Handler)
    requires Processable(h.capacity, m)
    ensures r.capacity == h.capacity
    ensures Placed(h, RenderedLines(|h.current|, h.capacity, m), r)
  {
    if m.payload.IsAggregated() then
      AggregatedBuffers(h, m, m.payload.fvalues);
      WriteAggregated(h, m, m.payload.fvalues)
    else
      WriteLine(h, Line(m))
  }

  /** The lines a metric is rendered into when the current buffer holds
      `used` bytes. */
  function RenderedLines(used: nat, capacity: nat, m: Metric): seq<string>
    requires Processable(capacity, m)
  {
    if m.payload.IsAggregated() then AggLines(m, Chunks(used, capacity, m, m.payload.fvalues))
    else [Line(m)]
  }

  /** Every line an aggregated split produces is sealed. */
  lemma AggLinesSealed(capacity: nat, m: Metric, cs: seq<seq<string>>)
    requires forall i :: 0 <= i < |cs| ==> FitsAfter(0, capacity, m, cs[i])
    ensures AllSealed(AggLines(m, cs), capacity)
  {
  }

  lemma RenderedLinesSealed(used: nat, capacity: nat, m: Metric)
    requires Processable(capacity, m)
    ensures AllSealed(RenderedLines(used, capacity, m), capacity)
  {
    if m.payload.IsAggregated() {
      ChunksFit(used, capacity, m, m.payload.fvalues);
      AggLinesSealed(capacity, m, Chunks(used, capacity, m, m.payload.fvalues));
    }
  }

  /** Placing sealed lines keeps the handler invariant and leaves the queued
      buffers in place, in order. */
  lemma PlacedValid(h: Handler, ls: seq<string>, r: Handler)
    requires Valid(h) && AllSealed(ls, h.capacity) && Placed(h, ls, r)
    ensures Valid(r) && r.capacity == h.capacity && h.queue <= r.queue
  {
    var n := |ls|;
    assert AllSealed(ls[..n - 1], h.capacity);
    if |h.current| + |ls[0]| <= h.capacity {
      if n > 1 {
        assert AllSealed(ls[1..n - 1], h.capacity);
        assert Sealed(h.current + ls[0], h.capacity);
        AllSealedAppend(h.queue, [h.current + ls[0]], h.capacity);
        AllSealedAppend(h.queue + [h.current + ls[0]], ls[1..n - 1], h.capacity);
      }
    } else {
      AllSealedAppend(h.queue, [h.current], h.capacity);
      AllSealedAppend(h.queue + [h.current], ls[..n - 1], h.capacity);
    }
  }

  lemma ConcatOne(b: string)
    ensures Concat([b]) == b
  {
    assert [b][..0] == [];
  }

  lemma StreamShape(capacity: nat, q: seq<string>, x: string, mid: seq<string>, last: string)
    ensures Stream(Handler(capacity, last, q + [x] + mid)) == Concat(q) + x + Concat(mid) + last
  {
    ConcatAppend(q + [x], mid);
    ConcatAppend(q, [x]);
    ConcatOne(x);
  }

  lemma ConcatEnds(ls: seq<string>)
    requires |ls| > 1
    ensures Concat(ls) == ls[0] + Concat(ls[1..|ls| - 1]) + ls[|ls| - 1]
  {
    var n := |ls|;
    assert Concat(ls) == Concat(ls[..n - 1]) + ls[n - 1];
    assert ls[..n - 1] == [ls[0]] + ls[1..n - 1];
    ConcatAppend([ls[0]], ls[1..n - 1]);
    ConcatOne(ls[0]);
  }

  /** Placing lines appends exactly them to the accepted bytes. */
  lemma PlacedStream(h: Handler, ls: seq<string>, r: Handler)
    requires Placed(h, ls, r)
    ensures Stream(r) == Stream(h) + Concat(ls)
  {
    var n := |ls|;
    if |h.current| + |ls[0]| <= h.capacity {
      if n == 1 {
        ConcatOne(ls[0]);
      } else {
        StreamShape(h.capacity, h.queue, h.current + ls[0], ls[1..n - 1], ls[n - 1]);
        ConcatEnds(ls);
      }
    } else {
      StreamShape(h.capacity, h.queue, h.current, ls[..n - 1], ls[n - 1]);
      assert Concat(ls) == Concat(ls[..n - 1]) + ls[n - 1];
    }
  }

  /** Processing keeps every buffer within capacity and made of complete
      lines, and leaves the buffers already queued in place, in order. */
  lemma ProcessMetricValid(h: Handler, m: Metric)
    requires Valid(h) && Processable(h.capacity, m)
    ensures var r := ProcessMetric(h, m);
      Valid(r) && r.capacity == h.capacity && h.queue <= r.queue
  {
    RenderedLinesSealed(|h.current|, h.capacity, m);
    PlacedValid(h, RenderedLines(|h.current|, h.capacity, m), ProcessMetric(h, m));
  }

  /** Processing appends exactly the metric's lines to the accepted bytes. */
  lemma ProcessMetricStream(h: Handler, m: Metric)
    requires Processable(h.capacity, m)
    ensures Stream(ProcessMetric(h, m)) == Stream(h) + Concat(RenderedLines(|h.current|, h.capacity, m))
  {
    PlacedStream(h, RenderedLines(|h.current|, h.capacity, m), ProcessMetric(h, m));
  }

  /** The values a receiver reads off a sequence of lines, in order. */
  function AllValues(lines: seq<string>): seq<string>
  {
    if |lines| == 0 then [] else LineValues(lines[0]) + AllValues(lines[1..])
  }

  /** Safe values stay safe in the first chunk and in the rest. */
  lemma FlattenSafe(cs: seq<seq<string>>)
    requires |cs| > 0 && AllValueSafe(Flatten(cs))
    ensures AllValueSafe(cs[0]) && AllValueSafe(Flatten(cs[1..]))
  {
    var all := Flatten(cs);
    assert all == cs[0] + Flatten(cs[1..]);
    forall i | 0 <= i < |cs[0]|
      ensures ValueSafe(cs[0][i])
    {
      assert cs[0][i] == all[i];
    }
    forall i | 0 <= i < |Flatten(cs[1..])|
      ensures ValueSafe(Flatten(cs[1..])[i])
    {
      assert Flatten(cs[1..])[i] == all[|cs[0]| + i];
    }
  }

  /** Reading the lines of a split back yields the chunks' values laid end
      to end. */
  lemma {:induction false} AllValuesOfChunks(m: Metric, cs: seq<seq<string>>)
    requires WireSafe(m)
    requires forall i :: 0 <= i < |cs| ==> |cs[i]| > 0
    requires AllValueSafe(Flatten(cs))
    ensures AllValues(AggLines(m, cs)) == Flatten(cs)
    decreases |cs|
  {
    if |cs| > 0 {
      var ls := AggLines(m, cs);
      var all := Flatten(cs);
      assert ls[1..] == AggLines(m, cs[1..]);
      assert all == cs[0] + Flatten(cs[1..]);
      FlattenSafe(cs);
      AggLineRoundTrip(m, cs[0]);
      AllValuesOfChunks(m, cs[1..]);
    }
  }

  /** However an aggregated metric is split, a receiver reading its lines
      gets back exactly its values, in order, none dropped or repeated. */
  lemma AggregatedValuesRoundTrip(h: Handler, m: Metric)
    requires m.payload.IsAggregated() && Processable(h.capacity, m)
    requires WireSafe(m) && AllValueSafe(m.payload.fvalues)
    ensures AllValues(RenderedLines(|h.current|, h.capacity, m)) == m.payload.fvalues
    ensures AllValues(Lines(Concat(RenderedLines(|h.current|, h.capacity, m)))) == m.payload.fvalues
  {
    ChunksPartition(|h.current|, h.capacity, m, m.payload.fvalues);
    AllValuesOfChunks(m, Chunks(|h.current|, h.capacity, m, m.payload.fvalues));
    RenderedLinesOneLine(|h.current|, h.capacity, m);
    LinesConcat(RenderedLines(|h.current|, h.capacity, m));
  }

  /** The lines of chunks of safe values are complete lines. */
  lemma {:induction false} AggLinesOneLine(m: Metric, cs: seq<seq<string>>)
    requires WireSafe(m) && AllValueSafe(Flatten(cs))
    ensures AllOneLine(AggLines(m, cs))
    decreases |cs|
  {
    if |cs| > 0 {
      FlattenSafe(cs);
      JoinAvoids(cs[0], ':', '\n');
      LineWithOneLine(m, Join(cs[0], ':'));
      AggLinesOneLine(m, cs[1..]);
      assert AggLines(m, cs) == [AggLine(m, cs[0])] + AggLines(m, cs[1..]);
    }
  }

  /** Every line a readable metric renders is one complete line. */
  lemma RenderedLinesOneLine(used: nat, capacity: nat, m: Metric)
    requires Processable(capacity, m) && Readable(m)
    ensures AllOneLine(RenderedLines(used, capacity, m))
  {
    if m.payload.IsAggregated() {
      ChunksPartition(used, capacity, m, m.payload.fvalues);
      AggLinesOneLine(m, Chunks(used, capacity, m, m.payload.fvalues));
    }
  }

  /** The bytes of a well-formed handler end a line, or there are none. */
  lemma StreamTerminated(h: Handler)
    requires Valid(h)
    ensures Terminated(Stream(h))
  {
    if h.current == "" && |h.queue| > 0 {
      assert Sealed(h.queue[|h.queue| - 1], h.capacity);
    }
  }

  /** A receiver cutting the handler's bytes at '\n' finds the lines it had
      before followed by exactly the lines of the metric just processed. */
  lemma ProcessMetricReadBack(h: Handler, m: Metric)
    requires Valid(h) && Processable(h.capacity, m) && Readable(m)
    ensures Lines(Stream(ProcessMetric(h, m))) == Lines(Stream(h)) + RenderedLines(|h.current|, h.capacity, m)
  {
    var ls := RenderedLines(|h.current|, h.capacity, m);
    ProcessMetricStream(h, m);
    StreamTerminated(h);
    LinesAppend(Stream(h), Concat(ls));
    RenderedLinesOneLine(|h.current|, h.capacity, m);
    LinesConcat(ls);
  }
}

=== FILE: handler_examples.dfy ===
/**
 The handler's expected outputs for the concrete metrics its tests use: the
 namespace "namespace.", two global tags, and either two per-call tags or
 the pre-joined tag string "tag1,tag2". Every expected buffer ends each of
 its lines with the same tag section, written once as `TagTail`.
 */
module HandlerExamples {
  import opened Text
  import opened Metrics
  import opened MetricHandler

  const GlobalTags: seq<string> := ["globalTags", "globalTags2"]
  const CallTags: seq<string> := ["tag1", "tag2"]
  /** The tag section, globalTags,globalTags2,tag1,tag2, in its two halves. */
  const TagText: string := "globalTags,globalTags2" + "," + "tag1,tag2"
  /** What follows the type symbol on every line of the examples. */
  const TagTail: string := "|#" + TagText + "\n"
  /** The aggregated values 1.1, 2.2, 3.3 and 4.4, rendered. */
  const Values: seq<string> := ["1.1", "2.2", "3.3", "4.4"]

  function Single(name: string, p: Payload): Metric
  {
    Metric("namespace.", name, GlobalTags, CallTags, p)
  }

  function Aggregated(name: string, p: Payload): Metric
  {
    Metric("namespace.", name, GlobalTags, [], p)
  }

  /** The buffers queued after processing one metric in a fresh handler and
      flushing, oldest first. */
  function ProcessAndFlush(capacity: nat, m: Metric): seq<string>
    requires Processable(capacity, m)
  {
    Flush(ProcessMetric(NewHandler(capacity), m)).queue
  }

  lemma SingleTags(name: string, p: Payload)
    requires !p.IsAggregated()
    ensures TagSection(Single(name, p)) == TagText
  {
    assert Join(GlobalTags, ',') == "globalTags,globalTags2";
    assert Join(CallTags, ',') == "tag1,tag2";
    JoinAppend(GlobalTags, CallTags, ',');
  }

  lemma AggregatedTags(name: string, p: Payload)
    requires p.IsAggregated() && p.stags == "tag1,tag2"
    ensures TagSection(Aggregated(name, p)) == TagText
  {
    assert Join(GlobalTags, ',') == "globalTags,globalTags2";
  }

  /** A line whose text before the tags is `head` ends with `TagTail`. */
  lemma LineShape(m: Metric, value: string, head: string)
    requires TagSection(m) == TagText
    requires m.namespace + m.name + ":" + value + "|" + TypeTag(m.payload) == head
    ensures LineWith(m, value) == head + TagTail
  {
    var t := TypeTag(m.payload);
    calc {
      LineWith(m, value);
      (m.namespace + m.name + ":") + value + ("|" + t + ("|#" + TagText + "\n"));
      { assert "|" + t + ("|#" + TagText + "\n") == "|" + t + "|#" + TagText + "\n"; }
      (m.namespace + m.name + ":") + value + ("|" + t + "|#" + TagText + "\n");
      m.namespace + m.name + ":" + value + "|" + t + TagTail;
    }
  }

  /** A single-value line fits the test's 100-byte buffer and is the only
      buffer flushed. */
  lemma SingleExample(name: string, p: Payload, head: string)
    requires !p.IsAggregated()
    requires "namespace." + name + ":" + ValueText(p) + "|" + TypeTag(p) == head
    requires |head| + |TagTail| <= 100
    ensures Processable(100, Single(name, p)) && ProcessAndFlush(100, Single(name, p)) == [head + TagTail]
  {
    SingleTags(name, p);
    var m := Single(name, p);
    LineShape(m, ValueText(p), head);
    assert ProcessMetric(NewHandler(100), m) == Handler(100, "" + Line(m), []);
    assert "" + Line(m) == Line(m);
  }

  lemma GaugeHead()
    ensures "namespace." + "test_gauge" + ":" + "21" + "|" + "g" == "namespace.test_gauge:21|g"
  {
  }

  lemma GaugeExample()
    ensures var m := Single("test_gauge", Gauge("21"));
      Processable(100, m) && ProcessAndFlush(100, m) == ["namespace.test_gauge:21|g" + TagTail]
  {
    GaugeHead();
    SingleExample("test_gauge", Gauge("21"), "namespace.test_gauge:21|g");
  }

  lemma CountHead()
    ensures "namespace." + "test_count" + ":" + "21" + "|" + "c" == "namespace.test_count:21|c"
  {
  }

  lemma CountExample()
    ensures var m := Single("test_count", Count(21));
      Processable(100, m) && ProcessAndFlush(100, m) == ["namespace.test_count:21|c" + TagTail]
  {
    assert IntToDecimal(21) == "21";
    CountHead();
    SingleExample("test_count", Count(21), "namespace.test_count:21|c");
  }

  lemma HistogramHead()
    ensures "namespace." + "test_histogram" + ":" + "21" + "|" + "h" == "namespace.test_histogram:21|h"
  {
  }

  lemma HistogramExample()
    ensures var m := Single("test_histogram", Histogram("21"));
      Processable(100, m) && ProcessAndFlush(100, m) == ["namespace.test_histogram:21|h" + TagTail]
  {
    HistogramHead();
    SingleExample("test_histogram", Histogram("21"), "namespace.test_histogram:21|h");
  }

  lemma DistributionHead()
    ensures "namespace." + "test_distribution" + ":" + "21" + "|" + "d" == "namespace.test_distribution:21|d"
  {
  }

  lemma DistributionExample()
    ensures var m := Single("test_distribution", Distribution("21"));
      Processable(100, m) && ProcessAndFlush(100, m) == ["namespace.test_distribution:21|d" + TagTail]
  {
    DistributionHead();
    SingleExample("test_distribution", Distribution("21"), "namespace.test_distribution:21|d");
  }

  lemma SetHead()
    ensures "namespace." + "test_set" + ":" + "value:1" + "|" + "s" == "namespace.test_set:value:1|s"
  {
  }

  /** The set value is written verbatim, its ':' included. */
  lemma SetExample()
    ensures var m := Single("test_set", Set("value:1"));
      Processable(100, m) && ProcessAndFlush(100, m) == ["namespace.test_set:value:1|s" + TagTail]
  {
    SetHead();
    SingleExample("test_set", Set("value:1"), "namespace.test_set:value:1|s");
  }

  lemma TimingHead()
    ensures "namespace." + "test_timing" + ":" + "1.200000" + "|" + "ms" == "namespace.test_timing:1.200000|ms"
  {
  }

  /** The timing value 1.2 arrives rendered with six decimals. */
  lemma TimingExample()
    ensures var m := Single("test_timing", Timing("1.200000"));
      Processable(100, m) && ProcessAndFlush(100, m) == ["namespace.test_timing:1.200000|ms" + TagTail]
  {
    TimingHead();
    SingleExample("test_timing", Timing("1.200000"), "namespace.test_timing:1.200000|ms");
  }

  /** Every value is three characters long, as 1.1 to 4.4 are. */
  predicate ThreeWide(vs: seq<string>)
  {
    |vs| == 0 || (|vs[0]| == 3 && ThreeWide(vs[1..]))
  }

  /** Three-character values joined by ':' take four bytes each, less one. */
  lemma JoinThreeWide(vs: seq<string>)
    requires |vs| > 0 && ThreeWide(vs)
    ensures |Join(vs, ':')| == 4 * |vs| - 1
    decreases |vs|
  {
    if |vs| > 1 {
      JoinThreeWide(vs[1..]);
    }
  }

  /** The size of a line of the examples' aggregated metrics. */
  lemma AggLineSize(name: string, p: Payload, vs: seq<string>)
    requires p.IsAggregated() && p.stags == "tag1,tag2"
    requires |vs| > 0 && ThreeWide(vs)
    ensures |AggLine(Aggregated(name, p), vs)| == |name| + 47 + 4 * |vs|
  {
    AggregatedTags(name, p);
    JoinThreeWide(vs);
  }

  /** Every single value of `Values` fits a buffer of `capacity`. */
  lemma ValuesFitAlone(capacity: nat, name: string, p: Payload)
    requires p.IsAggregated() && p.stags == "tag1,tag2"
    requires |name| + 51 <= capacity
    ensures FitsAlone(capacity, Aggregated(name, p), Values)
  {
    AggregatedTags(name, p);
    forall i | 0 <= i < |Values|
      ensures |AggLine(Aggregated(name, p), [Values[i]])| <= capacity
    {
      AggLineSingle(Aggregated(name, p), Values[i]);
    }
  }

  /** The values and their splits, joined as they are written. */
  lemma JoinedValues()
    ensures Join(Values, ':') == "1.1:2.2:3.3:4.4"
    ensures Join(["1.1", "2.2"], ':') == "1.1:2.2"
    ensures Join(["3.3", "4.4"], ':') == "3.3:4.4"
    ensures Join(["1.1", "2.2", "3.3"], ':') == "1.1:2.2:3.3"
    ensures Join(["4.4"], ':') == "4.4"
  {
    assert Join(["3.3", "4.4"], ':') == "3.3:4.4";
    assert Join(["2.2", "3.3", "4.4"], ':') == "2.2" + ":" + "3.3:4.4";
    assert Join(["2.2", "3.3"], ':') == "2.2:3.3";
  }

  lemma ValuesSplit()
    ensures Values[..2] == ["1.1", "2.2"] && Values[2..] == ["3.3", "4.4"]
    ensures Values[..3] == ["1.1", "2.2", "3.3"] && Values[3..] == ["4.4"]
    ensures Values[..4] == Values
  {
  }

  /** A write into an empty buffer whose line fits whole leaves that line
      as the current buffer. */
  lemma WholeFromEmpty(h: Handler, m: Metric, vs: seq<string>)
    requires h.current == ""
    requires |vs| > 0 && FitsAlone(h.capacity, m, vs) && FitsAfter(0, h.capacity, m, vs)
    ensures WriteAggregated(h, m, vs) == h.(current := AggLine(m, vs))
  {
    assert vs[..|vs|] == vs;
    FitCountUnique(0, h.capacity, m, vs, |vs|);
    WriteAggregatedAllFit(h, m, vs);
    assert h.current + AggLine(m, vs) == AggLine(m, vs);
  }

  /** The line of an example aggregated metric, given its text before the tags. */
  lemma AggLineShape(name: string, p: Payload, vs: seq<string>, value: string, head: string)
    requires p.IsAggregated() && p.stags == "tag1,tag2"
    requires Join(vs, ':') == value
    requires "namespace." + name + ":" + value + "|" + TypeTag(p) == head
    ensures AggLine(Aggregated(name, p), vs) == head + TagTail
  {
    AggregatedTags(name, p);
    LineShape(Aggregated(name, p), value, head);
  }

  /** All four values fit one line in the buffer, which alone is flushed. */
  lemma AggregatedOneLine(capacity: nat, name: string, p: Payload, head: string)
    requires p.IsAggregated() && p.stags == "tag1,tag2" && p.fvalues == Values
    requires |name| + 63 <= capacity
    requires "namespace." + name + ":" + "1.1:2.2:3.3:4.4" + "|" + TypeTag(p) == head
    ensures Processable(capacity, Aggregated(name, p))
         && ProcessAndFlush(capacity, Aggregated(name, p)) == [head + TagTail]
  {
    var m := Aggregated(name, p);
    ValuesFitAlone(capacity, name, p);
    AggLineSize(name, p, Values);
    WholeFromEmpty(NewHandler(capacity), m, Values);
    JoinedValues();
    AggLineShape(name, p, Values, "1.1:2.2:3.3:4.4", head);
  }

  /** Two values fit a line in an empty buffer but three do not: the first
      two values' line is queued and the other two continue. */
  lemma TwoLinesFirst(capacity: nat, name: string, p: Payload)
    requires p.IsAggregated() && p.stags == "tag1,tag2" && p.fvalues == Values
    requires |name| + 55 <= capacity < |name| + 59
    ensures FitsAlone(capacity, Aggregated(name, p), Values)
    ensures FitsAlone(capacity, Aggregated(name, p), ["3.3", "4.4"])
    ensures FitsAfter(0, capacity, Aggregated(name, p), ["3.3", "4.4"])
    ensures WriteAggregated(NewHandler(capacity), Aggregated(name, p), Values)
         == WriteAggregated(Handler(capacity, "", [AggLine(Aggregated(name, p), ["1.1", "2.2"])]),
                            Aggregated(name, p), ["3.3", "4.4"])
  {
    var m := Aggregated(name, p);
    var h := NewHandler(capacity);
    ValuesFitAlone(capacity, name, p);
    ValuesSplit();
    AggLineSize(name, p, ["1.1", "2.2"]);
    AggLineSize(name, p, ["1.1", "2.2", "3.3"]);
    AggLineSize(name, p, ["3.3", "4.4"]);
    FitCountUnique(0, capacity, m, Values, 2);
    WriteAggregatedSomeFit(h, m, Values, 2);
    var line1 := AggLine(m, ["1.1", "2.2"]);
    assert h.queue + [h.current + line1] == [line1] by {
      assert h.current + line1 == line1;
    }
  }

  /** Two values fit a line but three do not: the last two values' line
      is left in the current buffer. */
  lemma TwoLinesSecond(capacity: nat, name: string, p: Payload)
    requires p.IsAggregated() && p.stags == "tag1,tag2" && p.fvalues == Values
    requires |name| + 55 <= capacity < |name| + 59
    ensures FitsAlone(capacity, Aggregated(name, p), Values)
    ensures WriteAggregated(NewHandler(capacity), Aggregated(name, p), Values)
         == Handler(capacity, AggLine(Aggregated(name, p), ["3.3", "4.4"]),
                    [AggLine(Aggregated(name, p), ["1.1", "2.2"])])
  {
    var m := Aggregated(name, p);
    var rest := ["3.3", "4.4"];
    var h1 := Handler(capacity, "", [AggLine(m, ["1.1", "2.2"])]);
    TwoLinesFirst(capacity, name, p);
    ContinueFromEmpty(NewHandler(capacity), h1, m, Values, rest);
  }

  /** A write that continues in an empty buffer with values whose line fits
      whole ends with that line as the current buffer. */
  lemma ContinueFromEmpty(h0: Handler, h1: Handler, m: Metric, vs: seq<string>, rest: seq<string>)
    requires h1.current == ""
    requires |vs| > 0 && FitsAlone(h0.capacity, m, vs)
    requires |rest| > 0 && FitsAlone(h1.capacity, m, rest) && FitsAfter(0, h1.capacity, m, rest)
    requires WriteAggregated(h0, m, vs) == WriteAggregated(h1, m, rest)
    ensures WriteAggregated(h0, m, vs) == h1.(current := AggLine(m, rest))
  {
    WholeFromEmpty(h1, m, rest);
  }

  /** The same outcome, reached through the handler's entry point. */
  lemma TwoLinesWrite(capacity: nat, name: string, p: Payload)
    requires p.IsAggregated() && p.stags == "tag1,tag2" && p.fvalues == Values
    requires |name| + 55 <= capacity < |name| + 59
    ensures Processable(capacity, Aggregated(name, p))
    ensures ProcessMetric(NewHandler(capacity), Aggregated(name, p))
         == Handler(capacity, AggLine(Aggregated(name, p), ["3.3", "4.4"]),
                    [AggLine(Aggregated(name, p), ["1.1", "2.2"])])
  {
    TwoLinesSecond(capacity, name, p);
  }

  /** Two values fit a line but three do not: two buffers of two values each. */
  lemma AggregatedTwoLines(capacity: nat, name: string, p: Payload, head1: string, head2: string)
    requires p.IsAggregated() && p.stags == "tag1,tag2" && p.fvalues == Values
    requires |name| + 55 <= capacity < |name| + 59
    requires "namespace." + name + ":" + "1.1:2.2" + "|" + TypeTag(p) == head1
    requires "namespace." + name + ":" + "3.3:4.4" + "|" + TypeTag(p) == head2
    ensures Processable(capacity, Aggregated(name, p))
         && ProcessAndFlush(capacity, Aggregated(name, p)) == [head1 + TagTail, head2 + TagTail]
  {
    TwoLinesWrite(capacity, name, p);
    JoinedValues();
    AggLineShape(name, p, ["1.1", "2.2"], "1.1:2.2", head1);
    AggLineShape(name, p, ["3.3", "4.4"], "3.3:4.4", head2);
  }

  /** One aggregated value: a single line, flushed alone. */
  lemma AggregatedSingleValue(name: string, p: Payload, head: string)
    requires p.IsAggregated() && p.stags == "tag1,tag2" && p.fvalues == ["1.2"]
    requires |name| <= 49
    requires "namespace." + name + ":" + "1.2" + "|" + TypeTag(p) == head
    ensures Processable(100, Aggregated(name, p))
         && ProcessAndFlush(100, Aggregated(name, p)) == [head + TagTail]
  {
    var m := Aggregated(name, p);
    var vs := p.fvalues;
    AggLineSize(name, p, vs);
    WholeFromEmpty(NewHandler(100), m, vs);
    assert Join(vs, ':') == "1.2";
    AggLineShape(name, p, vs, "1.2", head);
  }

  lemma HistogramAggregatedExample()
    ensures var m := Aggregated("test_histogram", HistogramAggregated(["1.2"], "tag1,tag2"));
      Processable(100, m) && ProcessAndFlush(100, m) == ["namespace.test_histogram:1.2|h" + TagTail]
  {
    AggregatedSingleValue("test_histogram", HistogramAggregated(["1.2"], "tag1,tag2"), "namespace.test_histogram:1.2|h");
  }

  lemma DistributionAggregatedExample()
    ensures var m := Aggregated("test_distribution", DistributionAggregated(["1.2"], "tag1,tag2"));
      Processable(100, m) && ProcessAndFlush(100, m) == ["namespace.test_distribution:1.2|d" + TagTail]
  {
    AggregatedSingleValue("test_distribution", DistributionAggregated(["1.2"], "tag1,tag2"), "namespace.test_distribution:1.2|d");
  }

  /** The texts before the tags of the histogram lines below. */
  lemma HistogramFullHead()
    ensures "namespace." + "test_histogram" + ":" + "1.1:2.2:3.3:4.4" + "|" + "h" == "namespace.test_histogram:1.1:2.2:3.3:4.4|h"
  {
  }

  lemma HistogramFirstHead()
    ensures "namespace." + "test_histogram" + ":" + "1.1:2.2" + "|" + "h" == "namespace.test_histogram:1.1:2.2|h"
  {
  }

  lemma HistogramSecondHead()
    ensures "namespace." + "test_histogram" + ":" + "3.3:4.4" + "|" + "h" == "namespace.test_histogram:3.3:4.4|h"
  {
  }

  /** In a 100-byte buffer all four values share a line. */
  lemma HistogramAggregatedMultipleExample()
    ensures var m := Aggregated("test_histogram", HistogramAggregated(Values, "tag1,tag2"));
      Processable(100, m)
      && ProcessAndFlush(100, m) == ["namespace.test_histogram:1.1:2.2:3.3:4.4|h" + TagTail]
  {
    HistogramFullHead();
    AggregatedOneLine(100, "test_histogram", HistogramAggregated(Values, "tag1,tag2"),
                      "namespace.test_histogram:1.1:2.2:3.3:4.4|h");
  }

  /** In a 70-byte buffer the four values are split two and two. */
  lemma HistogramAggregatedSplitExample()
    ensures var m := Aggregated("test_histogram", HistogramAggregated(Values, "tag1,tag2"));
      Processable(70, m)
      && ProcessAndFlush(70, m) == ["namespace.test_histogram:1.1:2.2|h" + TagTail,
                                    "namespace.test_histogram:3.3:4.4|h" + TagTail]
  {
    HistogramFirstHead();
    HistogramSecondHead();
    AggregatedTwoLines(70, "test_histogram", HistogramAggregated(Values, "tag1,tag2"),
                       "namespace.test_histogram:1.1:2.2|h", "namespace.test_histogram:3.3:4.4|h");
  }

  /** The texts before the tags of the distribution lines below. */
  lemma DistributionFullHead()
    ensures "namespace." + "test_distribution" + ":" + "1.1:2.2:3.3:4.4" + "|" + "d" == "namespace.test_distribution:1.1:2.2:3.3:4.4|d"
  {
  }

  lemma DistributionFirstHead()
    ensures "namespace." + "test_distribution" + ":" + "1.1:2.2" + "|" + "d" == "namespace.test_distribution:1.1:2.2|d"
  {
  }

  lemma DistributionSecondHead()
    ensures "namespace." + "test_distribution" + ":" + "3.3:4.4" + "|" + "d" == "namespace.test_distribution:3.3:4.4|d"
  {
  }

  /** In a 100-byte buffer all four values share a line. */
  lemma DistributionAggregatedMultipleExample()
    ensures var m := Aggregated("test_distribution", DistributionAggregated(Values, "tag1,tag2"));
      Processable(100, m)
      && ProcessAndFlush(100, m) == ["namespace.test_distribution:1.1:2.2:3.3:4.4|d" + TagTail]
  {
    DistributionFullHead();
    AggregatedOneLine(100, "test_distribution", DistributionAggregated(Values, "tag1,tag2"),
                      "namespace.test_distribution:1.1:2.2:3.3:4.4|d");
  }

  /** In a 72-byte buffer the four values are split two and two. */
  lemma DistributionAggregatedSplitExample()
    ensures var m := Aggregated("test_distribution", DistributionAggregated(Values, "tag1,tag2"));
      Processable(72, m)
      && ProcessAndFlush(72, m) == ["namespace.test_distribution:1.1:2.2|d" + TagTail,
                                    "namespace.test_distribution:3.3:4.4|d" + TagTail]
  {
    DistributionFirstHead();
    DistributionSecondHead();
    AggregatedTwoLines(72, "test_distribution", DistributionAggregated(Values, "tag1,tag2"),
                       "namespace.test_distribution:1.1:2.2|d", "namespace.test_distribution:3.3:4.4|d");
  }

  /** The first metric's four values fill 80 bytes of a 160-byte buffer. */
  lemma FirstOfTwo(name1: string, p1: Payload)
    requires p1.IsAggregated() && p1.stags == "tag1,tag2" && p1.fvalues == Values
    requires |name1| == 17
    ensures Processable(160, Aggregated(name1, p1))
    ensures ProcessMetric(NewHandler(160), Aggregated(name1, p1))
         == Handler(160, AggLine(Aggregated(name1, p1), Values), [])
    ensures |AggLine(Aggregated(name1, p1), Values)| == 80
  {
    ValuesFitAlone(160, name1, p1);
    AggLineSize(name1, p1, Values);
    WholeFromEmpty(NewHandler(160), Aggregated(name1, p1), Values);
  }

  /** After 80 bytes, three of the second metric's values still fit and
      close the buffer. */
  lemma SecondOfTwoStep(line1: string, name2: string, p2: Payload)
    requires |line1| == 80
    requires p2.IsAggregated() && p2.stags == "tag1,tag2" && p2.fvalues == Values
    requires |name2| == 19
    ensures FitsAlone(160, Aggregated(name2, p2), Values)
    ensures FitsAlone(160, Aggregated(name2, p2), ["4.4"])
    ensures WriteAggregated(Handler(160, line1, []), Aggregated(name2, p2), Values)
         == WriteAggregated(Handler(160, "", [line1 + AggLine(Aggregated(name2, p2), ["1.1", "2.2", "3.3"])]),
                            Aggregated(name2, p2), ["4.4"])
  {
    var m := Aggregated(name2, p2);
    var h := Handler(160, line1, []);
    ValuesFitAlone(160, name2, p2);
    ValuesSplit();
    AggLineSize(name2, p2, ["1.1", "2.2", "3.3"]);
    AggLineSize(name2, p2, Values);
    FitCountUnique(80, 160, m, Values, 3);
    WriteAggregatedSomeFit(h, m, Values, 3);
    assert h.queue + [h.current + AggLine(m, ["1.1", "2.2", "3.3"])]
        == [line1 + AggLine(m, ["1.1", "2.2", "3.3"])];
  }

  /** After 80 bytes, three of the second metric's values still fit; the
      fourth goes to a fresh buffer. */
  lemma SecondOfTwo(line1: string, name2: string, p2: Payload)
    requires |line1| == 80
    requires p2.IsAggregated() && p2.stags == "tag1,tag2" && p2.fvalues == Values
    requires |name2| == 19
    ensures Processable(160, Aggregated(name2, p2))
    ensures ProcessMetric(Handler(160, line1, []), Aggregated(name2, p2))
         == Handler(160, AggLine(Aggregated(name2, p2), ["4.4"]),
                    [line1 + AggLine(Aggregated(name2, p2), ["1.1", "2.2", "3.3"])])
  {
    var m := Aggregated(name2, p2);
    SecondOfTwoStep(line1, name2, p2);
    AggLineSize(name2, p2, ["4.4"]);
    WholeFromEmpty(Handler(160, "", [line1 + AggLine(m, ["1.1", "2.2", "3.3"])]), m, ["4.4"]);
  }

  lemma Distribution2PartHead()
    ensures "namespace." + "test_distribution_2" + ":" + "1.1:2.2:3.3" + "|" + "d"
         == "namespace.test_distribution_2:1.1:2.2:3.3|d"
  {
  }

  lemma Distribution2RestHead()
    ensures "namespace." + "test_distribution_2" + ":" + "4.4" + "|" + "d"
         == "namespace.test_distribution_2:4.4|d"
  {
  }

  /** Two aggregated metrics in a 160-byte buffer: the first one's line and
      three values of the second share a buffer, which is queued, and the
      fourth value is left in the current buffer. */
  lemma TwoAggregatedBuffers(name1: string, name2: string, p: Payload)
    requires p.IsAggregated() && p.stags == "tag1,tag2" && p.fvalues == Values
    requires |name1| == 17 && |name2| == 19
    ensures Processable(160, Aggregated(name1, p)) && Processable(160, Aggregated(name2, p))
    ensures ProcessMetric(ProcessMetric(NewHandler(160), Aggregated(name1, p)), Aggregated(name2, p))
         == Handler(160, AggLine(Aggregated(name2, p), ["4.4"]),
                    [AggLine(Aggregated(name1, p), Values) + AggLine(Aggregated(name2, p), ["1.1", "2.2", "3.3"])])
  {
    FirstOfTwo(name1, p);
    SecondOfTwo(AggLine(Aggregated(name1, p), Values), name2, p);
  }

  /** Two aggregated metrics in a 160-byte buffer, their lines given by
      their text before the tags. */
  lemma TwoAggregated(name1: string, name2: string, p: Payload, head1: string, head2: string, head3: string)
    requires p.IsAggregated() && p.stags == "tag1,tag2" && p.fvalues == Values
    requires |name1| == 17 && |name2| == 19
    requires "namespace." + name1 + ":" + "1.1:2.2:3.3:4.4" + "|" + TypeTag(p) == head1
    requires "namespace." + name2 + ":" + "1.1:2.2:3.3" + "|" + TypeTag(p) == head2
    requires "namespace." + name2 + ":" + "4.4" + "|" + TypeTag(p) == head3
    ensures Processable(160, Aggregated(name1, p)) && Processable(160, Aggregated(name2, p))
    ensures Flush(ProcessMetric(ProcessMetric(NewHandler(160), Aggregated(name1, p)), Aggregated(name2, p))).queue
         == [head1 + TagTail + head2 + TagTail, head3 + TagTail]
  {
    var m1 := Aggregated(name1, p);
    var m2 := Aggregated(name2, p);
    TwoAggregatedBuffers(name1, name2, p);
    var b := AggLine(m1, Values) + AggLine(m2, ["1.1", "2.2", "3.3"]);
    var c := AggLine(m2, ["4.4"]);
    FlushOne(160, b, c);
    JoinedValues();
    AggLineShape(name1, p, Values, "1.1:2.2:3.3:4.4", head1);
    AggLineShape(name2, p, ["1.1", "2.2", "3.3"], "1.1:2.2:3.3", head2);
    AggLineShape(name2, p, ["4.4"], "4.4", head3);
    Regroup(head1 + TagTail, head2, TagTail);
    assert b == head1 + TagTail + head2 + TagTail;
  }

  lemma Regroup(x: string, y: string, z: string)
    ensures x + (y + z) == x + y + z
  {
  }

  /** Flushing a handler with one queued buffer queues the current one behind it. */
  lemma FlushOne(capacity: nat, b: string, c: string)
    requires c != ""
    ensures Flush(Handler(capacity, c, [b])).queue == [b, c]
  {
  }

  /** Two aggregated metrics in a 160-byte buffer: the first fits whole,
      three values of the second join it, and the last value of the second
      is flushed in a buffer of its own. */
  lemma TwoDistributionsExample()
    ensures var m1 := Aggregated("test_distribution", DistributionAggregated(Values, "tag1,tag2"));
      var m2 := Aggregated("test_distribution_2", DistributionAggregated(Values, "tag1,tag2"));
      && Processable(160, m1)
      && Processable(160, m2)
      && Flush(ProcessMetric(ProcessMetric(NewHandler(160), m1), m2)).queue
         == ["namespace.test_distribution:1.1:2.2:3.3:4.4|d" + TagTail
               + "namespace.test_distribution_2:1.1:2.2:3.3|d" + TagTail,
             "namespace.test_distribution_2:4.4|d" + TagTail]
  {
    DistributionFullHead();
    Distribution2PartHead();
    Distribution2RestHead();
    TwoAggregated("test_distribution", "test_distribution_2", DistributionAggregated(Values, "tag1,tag2"),
                  "namespace.test_distribution:1.1:2.2:3.3:4.4|d",
                  "namespace.test_distribution_2:1.1:2.2:3.3|d",
                  "namespace.test_distribution_2:4.4|d");
  }
}

=== FILE: metrics.dfy ===
/**
 The metric value and its DogStatsD line encoding.

 A line is `<namespace><name>:<value>|<type>|#<tags>\n`. For the aggregated
 histogram and distribution the value part is several values joined by ':'
 and the tag part is the global tags followed by a tag string the caller
 has already joined. Floating-point values arrive already rendered as text.
 */
module Metrics {
  import opened Text

  /** The value payload; the constructor fixes the metric type. */
  datatype Payload =
    | Gauge(fvalue: string)
    | Count(ivalue: int)
    | Histogram(fvalue: string)
    | Distribution(fvalue: string)
    | Set(svalue: string)
    | Timing(fvalue: string)
    | HistogramAggregated(fvalues: seq<string>, stags: string)
    | DistributionAggregated(fvalues: seq<string>, stags: string)
  {
    predicate IsAggregated() {
      HistogramAggregated? || DistributionAggregated?
    }
  }

  datatype Metric = Metric(
    namespace: string,
    name: string,
    globalTags: seq<string>,
    tags: seq<string>,
    payload: Payload)

  /** The type symbol written after the value: one or two lower-case
      letters, so it never holds a separator of the line. */
  function TypeTag(p: Payload): (t: string)
    ensures 0 < |t| <= 2
    ensures forall i :: 0 <= i < |t| ==> 'a' <= t[i] <= 'z'
  {
    match p
    case Gauge(_) => "g"
    case Count(_) => "c"
    case Histogram(_) => "h"
    case HistogramAggregated(_, _) => "h"
    case Distribution(_) => "d"
    case DistributionAggregated(_, _) => "d"
    case Set(_) => "s"
    case Timing(_) => "ms"
  }

  /** The kind of metric a receiver tells from the type symbol: an aggregated
      histogram or distribution counts as a histogram or distribution. */
  predicate SameKind(p: Payload, q: Payload)
  {
    && (p.Gauge? <==> q.Gauge?)
    && (p.Count? <==> q.Count?)
    && (p.Histogram? || p.HistogramAggregated? <==> q.Histogram? || q.HistogramAggregated?)
    && (p.Distribution? || p.DistributionAggregated? <==> q.Distribution? || q.DistributionAggregated?)
    && (p.Set? <==> q.Set?)
    && (p.Timing? <==> q.Timing?)
  }

  /** Two payloads get the same type symbol exactly when they are of the
      same kind. */
  lemma TypeTagIdentifiesKind(p: Payload, q: Payload)
    ensures TypeTag(p) == TypeTag(q) <==> SameKind(p, q)
  {
    if TypeTag(p) == TypeTag(q) {
      assert TypeTag(p)[0] == TypeTag(q)[0];
      assert |TypeTag(p)| == |TypeTag(q)|;
    }
  }

  /** The value text of a single-value metric. */
  function ValueText(p: Payload): string
    requires !p.IsAggregated()
  {
    match p
    case Count(i) => IntToDecimal(i)
    case Set(s) => s
    case Gauge(f) => f
    case Histogram(f) => f
    case Distribution(f) => f
    case Timing(f) => f
  }

  /** The tags a receiver sees, in order. */
  function TagList(m: Metric): seq<string>
  {
    if m.payload.IsAggregated() then
      m.globalTags + (if m.payload.stags == "" then [] else Split(m.payload.stags, ','))
    else
      m.globalTags + m.tags
  }

  /** The tag text as written: global tags, then the per-call tags (or the
      pre-joined `stags` for aggregated metrics), with a comma between two
      tags and none at either end. */
  function TagSection(m: Metric): string
  {
    if m.payload.IsAggregated() then
      var g := Join(m.globalTags, ',');
      if m.payload.stags == "" then g
      else if |m.globalTags| == 0 then m.payload.stags
      else g + "," + m.payload.stags
    else
      Join(m.globalTags + m.tags, ',')
  }

  /** The tag text is the receiver's tag list joined by commas. */
  lemma TagSectionIsJoin(m: Metric)
    ensures TagSection(m) == Join(TagList(m), ',')
  {
    if m.payload.IsAggregated() && m.payload.stags != "" {
      var parts := Split(m.payload.stags, ',');
      JoinSplit(m.payload.stags, ',');
      if |m.globalTags| == 0 {
        assert TagList(m) == parts;
      } else {
        JoinAppend(m.globalTags, parts, ',');
      }
    } else if m.payload.IsAggregated() {
      assert TagList(m) == m.globalTags;
    }
  }

  function Header(m: Metric): string
  {
    m.namespace + m.name + ":"
  }

  function Trailer(m: Metric): string
  {
    "|" + TypeTag(m.payload) + "|#" + TagSection(m) + "\n"
  }

  /** A complete line around the given value text. */
  function LineWith(m: Metric, value: string): (line: string)
    ensures |line| == |Header(m)| + |value| + |Trailer(m)|
    ensures line[|line| - 1] == '\n'
  {
    Header(m) + value + Trailer(m)
  }

  /** The line of a single-value metric. A receiver cuts it whole out of its
      buffer and reads it back with its value text; a set value is copied
      verbatim, ':' included. */
  function Line(m: Metric): (line: string)
    requires !m.payload.IsAggregated()
    ensures WireSafe(m) && '|' !in ValueText(m.payload) && '\n' !in ValueText(m.payload) ==>
      && OneLine(line)
      && ParseLine(line) == Some(Fields(m.namespace + m.name, ValueText(m.payload), TypeTag(m.payload), TagList(m)))
  {
    var v := ValueText(m.payload);
    assert WireSafe(m) && '|' !in v && '\n' !in v ==>
      && OneLine(LineWith(m, v))
      && ParseLine(LineWith(m, v)) == Some(Fields(m.namespace + m.name, v, TypeTag(m.payload), TagList(m))) by {
      if WireSafe(m) && '|' !in v && '\n' !in v {
        LineWithRoundTrip(m, v);
      }
    }
    LineWith(m, v)
  }

  /** A value holding '|' does not survive: a receiver stops the value at
      its first '|', so whatever it reads is shorter than the value written. */
  lemma BarInValueUnreadable(m: Metric)
    requires !m.payload.IsAggregated()
    requires ':' !in m.namespace + m.name
    requires '|' in ValueText(m.payload)
    ensures ParseLine(Line(m)).Some? ==> |ParseLine(Line(m)).value.value| < |ValueText(m.payload)|
  {
    assert Line(m) == (m.namespace + m.name) + [':'] + (ValueText(m.payload) + Trailer(m));
    BarCut(m.namespace + m.name, ValueText(m.payload), Trailer(m));
  }

  lemma BarCut(name: string, v: string, t: string)
    requires ':' !in name && '|' in v
    ensures ParseLine(name + [':'] + (v + t)).Some? ==> |ParseLine(name + [':'] + (v + t)).value.value| < |v|
  {
    var rest := v + t;
    CutAfter(name, ':', rest);
    var k :| 0 <= k < |v| && v[k] == '|';
    assert rest[k] == '|';
    assert Find(rest, '|') <= k;
  }

  /** A value holding '\n' ends its line early: the line is not one
      complete line, so a receiver cutting the buffer at '\n' splits it. */
  lemma NewlineInValueSplitsLine(m: Metric)
    requires !m.payload.IsAggregated()
    requires '\n' in ValueText(m.payload)
    ensures !OneLine(Line(m))
  {
    NewlineBeforeEnd(Header(m), ValueText(m.payload), Trailer(m));
  }

  lemma NewlineBeforeEnd(a: string, v: string, t: string)
    requires '\n' in v && 0 < |t|
    ensures !OneLine(a + v + t)
  {
    var s := a + v + t;
    var k :| 0 <= k < |v| && v[k] == '\n';
    assert s[..|s| - 1][|a| + k] == '\n';
  }

  /** The line carrying the given values of an aggregated metric. */
  function AggLine(m: Metric, vs: seq<string>): string
  {
    LineWith(m, Join(vs, ':'))
  }

  /** Bytes a line needs besides its value text. */
  function Overhead(m: Metric): nat
  {
    |Header(m)| + |Trailer(m)|
  }

  /** One more value costs one separator and the value's own length. */
  lemma AggLineGrowth(m: Metric, vs: seq<string>, v: string)
    requires |vs| > 0
    ensures |AggLine(m, vs + [v])| == |AggLine(m, vs)| + 1 + |v|
  {
    JoinSnoc(vs, v, ':');
  }

  /** A line of one value costs the overhead and the value. */
  lemma AggLineSingle(m: Metric, v: string)
    ensures |AggLine(m, [v])| == Overhead(m) + |v|
  {
  }

  /** A line of a longer prefix of the values is never shorter. */
  lemma {:induction false} AggLineMonotone(m: Metric, vs: seq<string>, i: nat, j: nat)
    requires i <= j <= |vs|
    ensures |AggLine(m, vs[..i])| <= |AggLine(m, vs[..j])|
    decreases j - i
  {
    if i < j {
      AggLineMonotone(m, vs, i, j - 1);
      TakeNext(vs, j - 1);
      if j - 1 > 0 {
        AggLineGrowth(m, vs[..j - 1], vs[j - 1]);
      } else {
        assert vs[..0] == [];
      }
    }
  }

  /** The fields a receiver reads off one line. */
  datatype Fields = Fields(name: string, value: string, typeTag: string, tags: seq<string>)

  function ParseTags(s: string): seq<string>
  {
    if s == "" then [] else Split(s, ',')
  }

  /** The text before and after the first `c`; None when `s` holds no `c`. */
  function Cut(s: string, c: char): Option<(string, string)>
  {
    var i := Find(s, c);
    if i == |s| then None else Some((s[..i], s[i + 1..]))
  }

  lemma CutAfter(a: string, c: char, b: string)
    requires c !in a
    ensures Cut(a + [c] + b, c) == Some((a, b))
  {
    FindAfter(a, c, b);
    assert (a + [c] + b)[..|a|] == a;
    assert (a + [c] + b)[|a| + 1..] == b;
  }

  /** Reads one line: the name up to the first ':', the value up to the next
      '|', the type up to the next '|', then '#', the tags, and the newline. */
  function ParseLine(line: string): Option<Fields>
  {
    match Cut(line, ':')
    case None => None
    case Some((name, rest)) =>
      match Cut(rest, '|')
      case None => None
      case Some((value, rest2)) =>
        match Cut(rest2, '|')
        case None => None
        case Some((tag, rest3)) =>
          if |rest3| < 2 || rest3[0] != '#' || rest3[|rest3| - 1] != '\n' then None
          else Some(Fields(name, value, tag, ParseTags(rest3[1..|rest3| - 1])))
  }

  /** What a receiver needs to read a line back unambiguously: a name without
      ':' or '\n', and tags that are non-empty and hold no ',' or '\n'. */
  predicate WireSafe(m: Metric)
  {
    && ':' !in m.namespace + m.name
    && '\n' !in m.namespace + m.name
    && forall i :: 0 <= i < |TagList(m)| ==> TagSafe(TagList(m)[i])
  }

  predicate TagSafe(t: string)
  {
    t != "" && ',' !in t && '\n' !in t
  }

  lemma ParseTagsJoin(tags: seq<string>)
    requires forall i :: 0 <= i < |tags| ==> TagSafe(tags[i])
    ensures ParseTags(Join(tags, ',')) == tags
  {
    if |tags| > 0 {
      JoinLengthAtLeastFirst(tags, ',');
      SplitJoin(tags, ',');
    }
  }

  /** A line's pieces regrouped around its three separators. */
  lemma PiecesNested(name: string, value: string, tag: string, tagText: string)
    ensures name + ":" + value + "|" + tag + "|#" + tagText + "\n"
         == name + [':'] + (value + ['|'] + (tag + ['|'] + ("#" + tagText + "\n")))
  {
  }

  /** The fields of a line assembled from its pieces come back out. */
  lemma {:induction false} ParsePieces(name: string, value: string, tag: string, tagText: string)
    requires ':' !in name && '|' !in value && '|' !in tag
    ensures ParseLine(name + ":" + value + "|" + tag + "|#" + tagText + "\n")
         == Some(Fields(name, value, tag, ParseTags(tagText)))
  {
    var tail3 := "#" + tagText + "\n";
    var tail2 := tag + ['|'] + tail3;
    var tail1 := value + ['|'] + tail2;
    PiecesNested(name, value, tag, tagText);
    CutAfter(name, ':', tail1);
    CutAfter(value, '|', tail2);
    CutAfter(tag, '|', tail3);
    assert tail3[1..|tail3| - 1] == tagText;
  }

  /** A line of a wire-safe metric ends with its only '\n' when the value text
      holds none. */
  lemma LineWithOneLine(m: Metric, value: string)
    requires WireSafe(m)
    requires '\n' !in value
    ensures OneLine(LineWith(m, value))
  {
    var line := LineWith(m, value);
    TagSectionIsJoin(m);
    JoinAvoids(TagList(m), ',', '\n');
    assert line[..|line| - 1]
        == m.namespace + m.name + ":" + value + "|" + TypeTag(m.payload) + "|#" + TagSection(m);
  }

  /** A receiver cuts the line out of its buffer whole and reads back the
      name, the value text, the type and the tags, whatever the value text
      holds besides '|' and '\n'. */
  lemma LineWithRoundTrip(m: Metric, value: string)
    requires WireSafe(m)
    requires '|' !in value && '\n' !in value
    ensures OneLine(LineWith(m, value))
    ensures ParseLine(LineWith(m, value))
         == Some(Fields(m.namespace + m.name, value, TypeTag(m.payload), TagList(m)))
  {
    LineWithOneLine(m, value);
    var name := m.namespace + m.name;
    var tag := TypeTag(m.payload);
    assert LineWith(m, value) == name + ":" + value + "|" + tag + "|#" + TagSection(m) + "\n";
    assert '|' !in tag;
    ParsePieces(name, value, tag, TagSection(m));
    TagSectionIsJoin(m);
    ParseTagsJoin(TagList(m));
  }

  /** The values of an aggregated line, in order, as a receiver splits them. */
  function LineValues(line: string): seq<string>
  {
    match ParseLine(line)
    case None => []
    case Some(f) => Split(f.value, ':')
  }

  predicate ValueSafe(v: string)
  {
    ':' !in v && '|' !in v && '\n' !in v
  }

  predicate AllValueSafe(vs: seq<string>)
  {
    forall i :: 0 <= i < |vs| ==> ValueSafe(vs[i])
  }

  /** What a receiver needs to read every line of a metric back: a wire-safe
      name and tags, and value text free of the line's separators. */
  predicate Readable(m: Metric)
  {
    && WireSafe(m)
    && if m.payload.IsAggregated() then AllValueSafe(m.payload.fvalues)
       else '|' !in ValueText(m.payload) && '\n' !in ValueText(m.payload)
  }

  /** An aggregated line reads back with exactly its values, in order. */
  lemma AggLineRoundTrip(m: Metric, vs: seq<string>)
    requires WireSafe(m)
    requires |vs| > 0
    requires AllValueSafe(vs)
    ensures ParseLine(AggLine(m, vs))
         == Some(Fields(m.namespace + m.name, Join(vs, ':'), TypeTag(m.payload), TagList(m)))
    ensures LineValues(AggLine(m, vs)) == vs
    ensures OneLine(AggLine(m, vs))
  {
    JoinAvoids(vs, ':', '|');
    JoinAvoids(vs, ':', '\n');
    LineWithRoundTrip(m, Join(vs, ':'));
    SplitJoin(vs, ':');
  }

  /** Aggregated metrics take their tags from the global tags and `stags`;
      the per-call tag list plays no part in their lines. */
  lemma AggregatedIgnoresCallTags(m: Metric, tags: seq<string>, vs: seq<string>)
    requires m.payload.IsAggregated()
    ensures AggLine(m.(tags := tags), vs) == AggLine(m, vs)
    ensures TagList(m.(tags := tags)) == TagList(m)
  {
  }
}

=== FILE: text.dfy ===
/**
 Text helpers for the DogStatsD wire format: joining and splitting on a
 separator, decimal rendering of integers, and concatenation of buffers.
 Strings are sequences of characters, and a length counts characters; it
 equals the byte count of the wire format for ASCII text.
 */
module Text {

  datatype Option<T> = None | Some(value: T)

  /** Index of the first occurrence of `c` in `s`, or `|s|` when there is none. */
  function Find(s: string, c: char): (i: nat)
    ensures i <= |s|
    ensures i < |s| ==> s[i] == c
    ensures forall j :: 0 <= j < i ==> s[j] != c
  {
    if |s| == 0 then 0
    else if s[0] == c then 0
    else 1 + Find(s[1..], c)
  }

  /** The separator directly after a prefix free of it is the one found. */
  lemma FindAfter(a: string, c: char, b: string)
    requires c !in a
    ensures Find(a + [c] + b, c) == |a|
  {
    assert (a + [c] + b)[|a|] == c;
  }

  /** The parts joined with `sep` between consecutive parts, none after the last. */
  function Join(parts: seq<string>, sep: char): string
  {
    if |parts| == 0 then ""
    else if |parts| == 1 then parts[0]
    else parts[0] + [sep] + Join(parts[1..], sep)
  }

  /** The pieces of `s` between occurrences of `sep`; "" splits into [""]. */
  function Split(s: string, sep: char): (parts: seq<string>)
    ensures |parts| > 0
    ensures forall i :: 0 <= i < |parts| ==> sep !in parts[i]
    decreases |s|
  {
    var i := Find(s, sep);
    if i == |s| then [s]
    else [s[..i]] + Split(s[i + 1..], sep)
  }

  /** Appending one part to a non-empty list adds one separator and the part. */
  lemma {:induction false} JoinSnoc(parts: seq<string>, p: string, sep: char)
    requires |parts| > 0
    ensures Join(parts + [p], sep) == Join(parts, sep) + [sep] + p
    decreases |parts|
  {
    if |parts| == 1 {
      assert (parts + [p])[1..] == [p];
    } else {
      assert (parts + [p])[1..] == parts[1..] + [p];
      JoinSnoc(parts[1..], p, sep);
    }
  }

  /** Joining two non-empty lists puts exactly one separator between them. */
  lemma {:induction false} JoinAppend(a: seq<string>, b: seq<string>, sep: char)
    requires |a| > 0 && |b| > 0
    ensures Join(a + b, sep) == Join(a, sep) + [sep] + Join(b, sep)
    decreases |a|
  {
    if |a| == 1 {
      assert (a + b)[1..] == b;
      assert (a + b)[0] == a[0];
    } else {
      assert (a + b)[1..] == a[1..] + b;
      JoinAppend(a[1..], b, sep);
    }
  }

  /** A character that is neither the separator nor in any part is not in the join. */
  lemma {:induction false} JoinAvoids(parts: seq<string>, sep: char, x: char)
    requires x != sep
    requires forall i :: 0 <= i < |parts| ==> x !in parts[i]
    ensures x !in Join(parts, sep)
    decreases |parts|
  {
    if |parts| > 1 {
      JoinAvoids(parts[1..], sep, x);
    }
  }

  /** The joined text is never shorter than the first part. */
  lemma JoinLengthAtLeastFirst(parts: seq<string>, sep: char)
    requires |parts| > 0
    ensures |Join(parts, sep)| >= |parts[0]|
  {
  }

  /** Splitting a join recovers the parts, provided no part holds the separator. */
  lemma {:induction false} SplitJoin(parts: seq<string>, sep: char)
    requires |parts| > 0
    requires forall i :: 0 <= i < |parts| ==> sep !in parts[i]
    ensures Split(Join(parts, sep), sep) == parts
    decreases |parts|
  {
    if |parts| == 1 {
      assert Find(parts[0], sep) == |parts[0]|;
    } else {
      var rest := Join(parts[1..], sep);
      var s := parts[0] + [sep] + rest;
      FindAfter(parts[0], sep, rest);
      assert s[..|parts[0]|] == parts[0];
      assert s[|parts[0]| + 1..] == rest;
      SplitJoin(parts[1..], sep);
      assert [parts[0]] + parts[1..] == parts;
    }
  }

  /** Joining a split restores the text. */
  lemma {:induction false} JoinSplit(s: string, sep: char)
    ensures Join(Split(s, sep), sep) == s
    decreases |s|
  {
    var i := Find(s, sep);
    if i < |s| {
      var tail := Split(s[i + 1..], sep);
      assert Split(s, sep) == [s[..i]] + tail;
      JoinSplit(s[i + 1..], sep);
      JoinCons(s[..i], tail, sep);
      assert s[..i] + [sep] + s[i + 1..] == s;
    }
  }

  lemma JoinCons(p: string, parts: seq<string>, sep: char)
    requires |parts| > 0
    ensures Join([p] + parts, sep) == p + [sep] + Join(parts, sep)
  {
    assert ([p] + parts)[1..] == parts;
  }

  /** Character of a decimal digit. */
  function DigitChar(d: nat): (c: char)
    requires d < 10
    ensures '0' <= c <= '9'
    ensures c as int - '0' as int == d
  {
    ('0' as int + d) as char
  }

  predicate IsDigit(c: char) { '0' <= c <= '9' }

  predicate AllDigits(s: string) { forall i :: 0 <= i < |s| ==> IsDigit(s[i]) }

  /** Plain decimal rendering of a natural number: digits only, no leading zero. */
  function NatToDecimal(n: nat): (s: string)
    ensures |s| > 0
    ensures AllDigits(s)
    ensures |s| > 1 ==> s[0] != '0'
  {
    if n < 10 then [DigitChar(n)]
    else NatToDecimal(n / 10) + [DigitChar(n % 10)]
  }

  /** The number a string of decimal digits denotes. */
  function DecimalValue(s: string): nat
    requires AllDigits(s)
  {
    if |s| == 0 then 0
    else 10 * DecimalValue(s[..|s| - 1]) + (s[|s| - 1] as int - '0' as int)
  }

  /** Reading back a rendered natural number gives the number. */
  lemma {:induction false} NatDecimalRoundTrip(n: nat)
    ensures DecimalValue(NatToDecimal(n)) == n
  {
    if n >= 10 {
      var s := NatToDecimal(n);
      assert s[..|s| - 1] == NatToDecimal(n / 10);
      NatDecimalRoundTrip(n / 10);
    }
  }

  /** Decimal rendering of an integer, with a leading '-' when negative. */
  function IntToDecimal(i: int): string
  {
    if i < 0 then "-" + NatToDecimal(-i) else NatToDecimal(i)
  }

  /** Reads a possibly negative decimal integer; None when the text is not one. */
  function ParseInt(s: string): Option<int>
  {
    if |s| > 1 && s[0] == '-' && AllDigits(s[1..]) then Some(0 - DecimalValue(s[1..]) as int)
    else if |s| > 0 && AllDigits(s) then Some(DecimalValue(s))
    else None
  }

  /** Reading back a rendered integer gives the integer. */
  lemma IntDecimalRoundTrip(i: int)
    ensures ParseInt(IntToDecimal(i)) == Some(i)
  {
    if i < 0 {
      var d := NatToDecimal(-i);
      var s := "-" + d;
      assert s[0] == '-' && s[1..] == d;
      NatDecimalRoundTrip(-i);
      assert ParseInt(s) == Some(0 - DecimalValue(d) as int);
    } else {
      var d := NatToDecimal(i);
      NatDecimalRoundTrip(i);
      assert IsDigit(d[0]);
      assert ParseInt(d) == Some(DecimalValue(d));
    }
  }

  /** The buffers laid end to end, oldest first. */
  function Concat(bs: seq<string>): string
  {
    if |bs| == 0 then "" else Concat(bs[..|bs| - 1]) + bs[|bs| - 1]
  }

  lemma {:induction false} ConcatAppend(a: seq<string>, b: seq<string>)
    ensures Concat(a + b) == Concat(a) + Concat(b)
    decreases |b|
  {
    if |b| == 0 {
      assert a + b == a;
    } else {
      DropLastAppend(a, b);
      ConcatAppend(a, b[..|b| - 1]);
    }
  }

  /** A complete line: it ends with '\n' and holds no other '\n'. */
  predicate OneLine(s: string)
  {
    0 < |s| && s[|s| - 1] == '\n' && '\n' !in s[..|s| - 1]
  }

  predicate AllOneLine(ls: seq<string>)
  {
    forall i :: 0 <= i < |ls| ==> OneLine(ls[i])
  }

  /** Text that is empty or ends a line, as a buffer of whole lines does. */
  predicate Terminated(s: string)
  {
    s == "" || s[|s| - 1] == '\n'
  }

  /** How a receiver cuts a buffer into lines: each piece runs up to and
      including the next '\n'; text after the last '\n' is a last piece of
      its own. */
  function Lines(s: string): seq<string>
    decreases |s|
  {
    if s == "" then []
    else
      var i := Find(s, '\n');
      if i == |s| then [s] else [s[..i + 1]] + Lines(s[i + 1..])
  }

  /** A complete line at the front is cut off as it is. */
  lemma LinesFirst(a: string, b: string)
    requires OneLine(a)
    ensures Lines(a + b) == [a] + Lines(b)
  {
    var a0 := a[..|a| - 1];
    assert a + b == a0 + ['\n'] + b;
    FindAfter(a0, '\n', b);
    assert (a + b)[..|a|] == a;
    assert (a + b)[|a|..] == b;
  }

  /** Cutting the concatenation of complete lines gives back those lines. */
  lemma {:induction false} LinesConcat(ls: seq<string>)
    requires AllOneLine(ls)
    ensures Lines(Concat(ls)) == ls
    decreases |ls|
  {
    if |ls| > 0 {
      ConcatAppend([ls[0]], ls[1..]);
      assert [ls[0]] + ls[1..] == ls;
      assert [ls[0]][..0] == [];
      assert Concat([ls[0]]) == ls[0];
      LinesFirst(ls[0], Concat(ls[1..]));
      LinesConcat(ls[1..]);
    }
  }

  /** Text that ends a line is cut the same way whatever follows it. */
  lemma {:induction false} LinesAppend(a: string, b: string)
    requires Terminated(a)
    ensures Lines(a + b) == Lines(a) + Lines(b)
    decreases |a|
  {
    if a == "" {
      assert a + b == b;
    } else {
      var i := Find(a, '\n');
      var k := Find(a + b, '\n');
      assert (a + b)[i] == '\n';
      assert k == i;
      assert (a + b)[..i + 1] == a[..i + 1];
      assert (a + b)[i + 1..] == a[i + 1..] + b;
      LinesAppend(a[i + 1..], b);
    }
  }

  lemma TakeDrop<T>(s: seq<T>, k: nat)
    requires k <= |s|
    ensures s[..k] + s[k..] == s
  {
  }

  lemma TakeOne<T>(s: seq<T>)
    requires |s| > 0
    ensures s[..1] == [s[0]]
  {
  }

  lemma TakeNext<T>(s: seq<T>, k: nat)
    requires k < |s|
    ensures s[..k] + [s[k]] == s[..k + 1]
  {
  }

  lemma DropLastAppend<T>(a: seq<T>, b: seq<T>)
    requires |b| > 0
    ensures (a + b)[..|a + b| - 1] == a + b[..|b| - 1]
    ensures (a + b)[|a + b| - 1] == b[|b| - 1]
  {
  }

  /** Slices of a sequence with one element put in front. */
  lemma ConsSlices<T>(x: T, ys: seq<T>)
    requires |ys| > 0
    ensures ([x] + ys)[..|ys|] == [x] + ys[..|ys| - 1]
    ensures ([x] + ys)[1..|ys|] == ys[..|ys| - 1]
    ensures ([x] + ys)[|ys|] == ys[|ys| - 1]
  {
  }

  /** The chunks laid end to end. */
  function Flatten<T>(cs: seq<seq<T>>): seq<T>
  {
    if |cs| == 0 then [] else cs[0] + Flatten(cs[1..])
  }

  lemma FlattenCons<T>(c: seq<T>, cs: seq<seq<T>>)
    ensures Flatten([c] + cs) == c + Flatten(cs)
  {
    assert ([c] + cs)[1..] == cs;
  }

  /** A first chunk is a prefix of the flattened sequence. */
  lemma FlattenHead<T>(cs: seq<seq<T>>)
    requires |cs| > 0
    ensures |cs[0]| <= |Flatten(cs)|
    ensures Flatten(cs)[..|cs[0]|] == cs[0]
  {
  }
}
